=== FILE: README.md ===
# Home Assistant integration cores in Dafny

This project models three small, deterministic pieces of Home Assistant
integrations and proves properties of them.

- **RFXtrx device identity.** A packet received from an RFXtrx 433 MHz
  gateway carries a packet type, a subtype and an `id_string`. These become
  the device identity `(f"{packettype:x}", f"{subtype:x}", id_string)`. For
  PT2262 / Lighting4 remotes, the low *data bits* of the id's last byte are a
  command, not part of the address. The model covers:
  - masking those bits out (`get_pt2262_deviceid`) and extracting them
    (`get_pt2262_cmd`);
  - inferring a device's configured width (`get_device_data_bits`);
  - guessing a configured device with a similar id (`find_possible_pt2262_device`);
  - the entity rules: unique id, group id, which events apply, and the
    `event` attribute;
  - what happens to each received packet: dropped, learnt by automatic add,
    dispatched, and put on the bus.
- **ESPHome setup wizard.** A state machine over the flow steps `user`,
  `zeroconf`, `discovery_confirm` and `authenticate`. It covers duplicate
  detection with unique-id backfill, the classification of connection errors,
  and the entry that is finally created. The device's API client is not
  called. Each step receives the device's answer as an outcome value.
- **Source-IP selection.** The candidates are the IPv4 addresses of enabled
  adapters, in order. The result is the operating system's choice when that
  is a candidate, and the first candidate otherwise.

Modules: `Wrappers` (Option, Result, the Python exceptions that can be
raised), `Hex` (`bytearray.fromhex`, `binascii.hexlify`, `f"{n:x}"`,
`hex()`), `Strings` (`str.partition`, `in`, `s[:-k]`, `"_".join`),
`OrderedMaps` (insertion-ordered dictionaries), `RfxtrxIds`, `RfxtrxEntity`,
`RfxtrxReceive`, `EsphomeConfigFlow` and `NetworkSourceIp`.

Modelling choices:
- Python exceptions that some input can trigger are `Err` results, not
  preconditions. These are an `IndexError` when a hex id decodes to no bytes,
  an `IndexError` when there are no candidate addresses, and an
  `AssertionError` when an `assert` in the ESPHome flow fails.
- `bytearray.fromhex` is modelled with its leniency. ASCII whitespace (space
  and `\t` to `\r`) may come before any byte pair. The two digits of a pair
  must be adjacent, and both letter cases are accepted.
- Bytes are integers 0..255. The masks are `bv8` values, so `&`, `|` and `~`
  mean exactly what they mean on a byte.
- Dictionaries the code iterates over are sequences of key/value pairs.
  Assigning to an existing key keeps its position; a new key goes at the end.
- `homeassistant/components/rfxtrx/const.py` is not part of this model.
  `DEVICE_PACKET_TYPE_LIGHTING4` is the RFXtrx protocol value `0x13`.
  `COMMAND_GROUP_LIST` is a parameter, a set of command names.
- The framework's `_abort_if_unique_id_configured` (called at
  `esphome/config_flow.py:106-109`) is modelled by its documented behaviour.
  The first entry whose unique id is the node name gets its host updated, and
  the flow aborts with `already_configured`.
- The title of a created ESPHome entry is the name the device reports, not
  the discovered node name: `config_flow.py:78` overwrites the name with
  `device_info.name` before `_async_get_entry` (lines 145-156) reads it. The
  model follows the code. After discovery, the node name is the flow's unique
  id (line 106), which the created entry carries.

## Model

| member | source | states |
|---|---|---|
| Hex.FromHex | homeassistant/components/rfxtrx/__init__.py:376-378 | `bytearray.fromhex`: decoding gives at most half as many bytes as characters, and canonical even-length lower-case hex always decodes to exactly half as many |
| Hex.ByteHex | homeassistant/components/rfxtrx/__init__.py:506 | `f"{x:02x}"`: two lower-case digits whose value is the byte |
| Hex.FromHexAccepts | homeassistant/components/rfxtrx/__init__.py:376-378 | text that `bytearray.fromhex` accepts holds only hex digits and ASCII whitespace, and gives one byte per two hex digits; any other character, or an odd digit count, is rejected |
| Hex.Hexlify | homeassistant/components/rfxtrx/__init__.py:383 | `binascii.hexlify`: two lower-case hex digits per byte |
| Hex.FromHexHexlify | homeassistant/components/rfxtrx/__init__.py:376-383 | decoding the hex text of any bytes gives back exactly those bytes |
| Hex.HexlifyFromHex | homeassistant/components/rfxtrx/__init__.py:376-383 | canonical hex text survives decode-then-encode unchanged |
| Hex.HexDigits | homeassistant/components/rfxtrx/__init__.py:445 | `f"{n:x}"` is non-empty lower-case hex with a leading `0` only for zero |
| Hex.HexValueHexDigits | homeassistant/components/rfxtrx/__init__.py:445 | reading `f"{n:x}"` back as hex gives `n` |
| Hex.HexDigitsInjective | homeassistant/components/rfxtrx/__init__.py:445 | different packet types or subtypes never get the same hex text |
| Hex.PyHex | homeassistant/components/rfxtrx/__init__.py:395 | `hex(n)` is `0x` followed by the canonical `f"{n:x}"` text of `n`: lower-case digits with value `n` and no leading zero |
| Strings.Contains | homeassistant/components/esphome/config_flow.py:197 | `sub in s` holds exactly when `sub` occurs at some position of `s` |
| Strings.Partition | homeassistant/components/rfxtrx/__init__.py:471 | `str.partition`: the three parts concatenate to the input, the head has no separator, and the separator part is empty only when nothing follows |
| Strings.PartitionUnique | homeassistant/components/rfxtrx/__init__.py:530 | any split `head + sep + tail` with a separator-free head is the partition |
| Strings.DropLast | homeassistant/components/esphome/config_flow.py:101-102 | `s[:-k]` drops exactly the last `k` characters, or gives `""` for a shorter string |
| Strings.Join | homeassistant/components/rfxtrx/__init__.py:468 | `sep.join(parts)`: `""` for no parts; otherwise it starts with the first part and is as long as all parts plus one separator between each neighbouring pair |
| Strings.JoinOfThree | homeassistant/components/rfxtrx/__init__.py:468 | `sep.join([a, b, c])` is `a`, `sep`, `b`, `sep`, `c` |
| Strings.Join3Injective | homeassistant/components/rfxtrx/__init__.py:468 | a three-part `"_".join` splits back uniquely when its first two parts contain no `_` |
| OrderedMaps.Get | homeassistant/components/rfxtrx/__init__.py:314 | `d.get(k)` is absent exactly for missing keys, and otherwise a value stored under `k` |
| OrderedMaps.Put | homeassistant/components/rfxtrx/__init__.py:327-329 | `d[k] = v` adds `k` to the keys and grows the map only for a new key |
| OrderedMaps.GetPut | homeassistant/components/rfxtrx/__init__.py:327-329 | after `d[k] = v`, `k` gives `v` and every other key gives what it gave before |
| OrderedMaps.PutDistinct | homeassistant/components/rfxtrx/__init__.py:329 | `d[k] = v` keeps the keys distinct |
| OrderedMaps.PutNewAppends | homeassistant/components/rfxtrx/__init__.py:327-329 | assigning a key the dictionary does not have appends the pair at the end |
| RfxtrxIds.BytearrayString | homeassistant/components/rfxtrx/__init__.py:104-111 | the send-service field is accepted exactly when it is valid hex, and is otherwise rejected with the fixed message |
| RfxtrxIds.BytearrayStringRoundTrip | homeassistant/components/rfxtrx/__init__.py:104-111 | the hex of any packet is accepted back as that packet, and canonical hex text is reproduced |
| RfxtrxIds.BytearrayStringExamples | homeassistant/components/rfxtrx/__init__.py:104-111 | whitespace between byte pairs and upper-case digits are accepted; an odd digit count or a split pair is rejected |
| RfxtrxIds.CommandMask | homeassistant/components/rfxtrx/__init__.py:393 | `0xFF & ((1 << n) - 1)` sets exactly the bits below `n` |
| RfxtrxIds.AddressMask | homeassistant/components/rfxtrx/__init__.py:379 | `0xFF & ~((1 << n) - 1)` is the bitwise complement of the command mask |
| RfxtrxIds.ClearLowBits | homeassistant/components/rfxtrx/__init__.py:379-381 | masking clears exactly the bits below `n` and keeps the others; width 0 keeps the byte and widths of 8 or more give 0 |
| RfxtrxIds.LowBits | homeassistant/components/rfxtrx/__init__.py:393-395 | the command keeps exactly the bits below `n`; widths of 8 or more keep the whole byte |
| RfxtrxIds.AddressCommandSplit | homeassistant/components/rfxtrx/__init__.py:379-395 | the address part and the command part of a byte are disjoint, and their OR is the byte |
| RfxtrxIds.ClearLowBitsIdempotent | homeassistant/components/rfxtrx/__init__.py:379-381 | masking a masked byte with the same width changes nothing |
| RfxtrxIds.MaskLast | homeassistant/components/rfxtrx/__init__.py:381 | `data[len(data) - 1] &= mask` keeps the byte count and every byte but the last, and clears exactly the low bits of the last |
| RfxtrxIds.Pt2262DeviceId | homeassistant/components/rfxtrx/__init__.py:370-383 | `None` exactly when no width is given or the id is not hex; IndexError exactly for an id with no bytes; otherwise canonical hex of the same bytes with only the last byte's low bits cleared |
| RfxtrxIds.Pt2262Cmd | homeassistant/components/rfxtrx/__init__.py:386-395 | `None` exactly for non-hex ids; IndexError exactly for an id with no bytes; otherwise `0x` and the canonical hex text, without leading zeros, of the last byte's low bits |
| RfxtrxIds.AddressAndCommandPartitionLastByte | homeassistant/components/rfxtrx/__init__.py:370-395 | the address id keeps every byte but the last; its last byte and the command value share no bit, and their OR is the original last byte |
| RfxtrxIds.Pt2262DeviceIdIdempotent | homeassistant/components/rfxtrx/__init__.py:379-383 | masking an already masked id with the same width returns that id |
| RfxtrxIds.MasksId | homeassistant/components/rfxtrx/__init__.py:440 | `data_bits and ...` masks only a Lighting4 packet with a width that is neither `None` nor 0, the falsy values |
| RfxtrxIds.GetDeviceId | homeassistant/components/rfxtrx/__init__.py:437-445 | type and subtype are the canonical hex of the numbers; the id is raw unless a non-zero width applies to a Lighting4 packet with a hex id, and is then the masked id; IndexError exactly for such a packet whose id has no bytes |
| RfxtrxIds.GetDeviceIdStable | homeassistant/components/rfxtrx/__init__.py:437-445 | identifying a device whose id is already its computed id gives the same identity |
| RfxtrxIds.GetDeviceDataBits | homeassistant/components/rfxtrx/__init__.py:398-407 | no width for any packet type other than Lighting4; an error only for a Lighting4 id with no bytes |
| RfxtrxIds.Claims | homeassistant/components/rfxtrx/__init__.py:404 | an entry that claims a device is keyed by the device's canonical hex type and subtype, and by its raw id whenever the entry's width does not mask it |
| RfxtrxIds.FirstClaimBits | homeassistant/components/rfxtrx/__init__.py:402-406 | the loop over the configured devices raises only for an id with no bytes, and a width it returns belongs to an entry that claims the device |
| RfxtrxIds.FirstClaimCases | homeassistant/components/rfxtrx/__init__.py:398-407 | the width found is that of the first entry that claims the device, or `None` when no entry claims it |
| RfxtrxIds.DataBitsOfFirstClaim | homeassistant/components/rfxtrx/__init__.py:401-406 | when entry `i` is the first in map order whose key equals the device's id computed with its width, that width is returned |
| RfxtrxIds.DataBitsWithoutClaim | homeassistant/components/rfxtrx/__init__.py:398-407 | when no entry claims the device, the width is `None` |
| RfxtrxIds.DataBitsFound | homeassistant/components/rfxtrx/__init__.py:401-406 | a width that is returned belongs to the first entry that claims the device |
| RfxtrxIds.PossibleMatch | homeassistant/components/rfxtrx/__init__.py:413-421 | a candidate is worth reporting exactly when it has the id's length and the two share a non-empty common prefix, which is what the `size is not None` test finds |
| RfxtrxIds.FindPossiblePt2262Device | homeassistant/components/rfxtrx/__init__.py:410-434 | `None` exactly when no id has the same length and first character; otherwise the first such id in order |
| RfxtrxEntity.GroupId | homeassistant/components/rfxtrx/__init__.py:469-471 | the group id is the longest prefix without `:`, and is the whole id when it has no `:` |
| RfxtrxEntity.GroupHeadIsGroupId | homeassistant/components/rfxtrx/__init__.py:469-471 | a `:`-free prefix of the id that is the whole id or is followed by `:` is exactly the group id |
| RfxtrxEntity.UniqueId | homeassistant/components/rfxtrx/__init__.py:468 | the unique id is packet type, subtype and id joined by `_` |
| RfxtrxEntity.NewEntity | homeassistant/components/rfxtrx/__init__.py:462-471 | a new entity keeps its device, identity and event; its name is type and id joined by a space, its unique id the identity's parts joined by `_`, and its group id the head of the id before the first `:` |
| RfxtrxEntity.UniqueIdDistinguishesDevices | homeassistant/components/rfxtrx/__init__.py:468 | two identities from get_device_id with the same unique id are the same identity |
| RfxtrxEntity.IsGroupCommand | homeassistant/components/rfxtrx/__init__.py:529 | an event without a `Command` value, or any event when no group commands exist, is never a group command |
| RfxtrxEntity.EventApplies | homeassistant/components/rfxtrx/__init__.py:527-534 | a group command applies exactly when the entity's group id is the head of the sender's id before `:`; any other event exactly when the identities are equal |
| RfxtrxEntity.GroupCommandReachesGroup | homeassistant/components/rfxtrx/__init__.py:527-531 | a group command from `g:k` applies to the entity of `g:k'`, whatever the indices |
| RfxtrxEntity.GroupCommandStaysInGroup | homeassistant/components/rfxtrx/__init__.py:527-531 | a group command from another group never applies, even with an equal identity |
| RfxtrxEntity.PlainEventNeedsSameIdentity | homeassistant/components/rfxtrx/__init__.py:533-534 | any other event applies exactly when its identity is the entity's |
| RfxtrxEntity.ApplyEvent | homeassistant/components/rfxtrx/__init__.py:536-538 | the entity stores the event and keeps its name, device, identity, unique id and group id |
| RfxtrxEntity.AttributeAfterApply | homeassistant/components/rfxtrx/__init__.py:502-506 | once an event is applied, the `event` attribute is hex that decodes to exactly that event's bytes |
| RfxtrxEntity.EventAttribute | homeassistant/components/rfxtrx/__init__.py:502-506 | no attribute before any event; afterwards canonical hex of twice the byte count, which decodes back to the event's bytes |
| RfxtrxReceive.EventCode | homeassistant/components/rfxtrx/__init__.py:326 | the event code is canonical hex that decodes back to the packet |
| RfxtrxReceive.DescribeEvent | homeassistant/components/rfxtrx/__init__.py:284-291 | the bus payload copies the device's type, subtype, type string, id and values, and carries hex text that decodes to the packet's bytes |
| RfxtrxReceive.FireEvent | homeassistant/components/rfxtrx/__init__.py:314 | `devices.get(device_id, {}).get(CONF_FIRE_EVENT)` is false for an unknown identity, and true only when an entry for the identity has fire_event set |
| RfxtrxReceive.LearntConfig | homeassistant/components/rfxtrx/__init__.py:321-322 | `DEVICE_DATA_SCHEMA({})` (lines 122-134) gives fire_event off and one signal repetition with every optional key absent; the identity is then added |
| RfxtrxReceive.AddDevice | homeassistant/components/rfxtrx/__init__.py:319-329 | the event code maps to the schema defaults plus the identity, and so does the identity in the lookup; every other code and identity is untouched |
| RfxtrxReceive.HandleReceive | homeassistant/components/rfxtrx/__init__.py:278-316 | empty ids are dropped; a drop of a non-empty id means automatic add is off; a dispatched identity is always known afterwards; the bus event fires exactly when its fire_event option is set and carries exactly the packet's `event_data` (type, subtype, strings, hex data and values) |
| RfxtrxReceive.UnknownDeviceDroppedWithoutAutomaticAdd | homeassistant/components/rfxtrx/__init__.py:298-302 | an unknown identity is dropped when automatic add is off |
| RfxtrxReceive.AutomaticAddLearnsDevice | homeassistant/components/rfxtrx/__init__.py:298-329 | with automatic add, an unknown identity is learnt under its event code and dispatched without a bus event |
| RfxtrxReceive.KnownDeviceKeepsState | homeassistant/components/rfxtrx/__init__.py:295-316 | a known identity is dispatched and leaves the receiver's state unchanged |
| RfxtrxReceive.ConfiguredDeviceIsRecognised | homeassistant/components/rfxtrx/__init__.py:295-316 | a Lighting4 packet is dispatched under the key of the first configured entry that claims it, and fires exactly when that entry's fire_event is set |
| RfxtrxReceive.LearntDeviceIsKnownNextTime | homeassistant/components/rfxtrx/__init__.py:295-329 | receiving a dispatched packet again gives the same reception: same identity, same bus event, and no further learning |
| EsphomeConfigFlow.Errors | homeassistant/components/esphome/config_flow.py:41-43 | the errors are empty exactly when there is no error, and are otherwise `{"base": error}` |
| EsphomeConfigFlow.AuthenticateFormFor | homeassistant/components/esphome/config_flow.py:169-178 | the password form names the device and carries `{"base": error}` or no errors |
| EsphomeConfigFlow.UserFormFor | homeassistant/components/esphome/config_flow.py:37-47 | the user form proposes port 6053 when the port is unknown or 0, and otherwise the known port; it proposes the known host exactly when it is non-empty |
| EsphomeConfigFlow.ClassifyConnectionError | homeassistant/components/esphome/config_flow.py:196-199 | `resolve_error` exactly when the message contains `resolving`, `connection_error` exactly when it does not |
| EsphomeConfigFlow.FetchDeviceInfo | homeassistant/components/esphome/config_flow.py:180-203 | the device info on success; otherwise one of the two connection error codes, as classified |
| EsphomeConfigFlow.TryLogin | homeassistant/components/esphome/config_flow.py:205-224 | `invalid_auth` exactly when the login is refused |
| EsphomeConfigFlow.GetEntry | homeassistant/components/esphome/config_flow.py:145-156 | the entry is titled with the name and stores host and port; the password is `""` exactly when none or an empty one was given; the entry carries the flow's unique id |
| EsphomeConfigFlow.SetUserInput | homeassistant/components/esphome/config_flow.py:64-68 | typed input replaces host and port and leaves the password, name and unique id alone; no input changes nothing |
| EsphomeConfigFlow.AuthenticateOrAdd | homeassistant/components/esphome/config_flow.py:64-84 | fails its assert exactly when no host or port is known; typed input replaces host and port, otherwise they are kept; a connection error re-shows the user form with the classified error; a device with a password leads to the password form; any other gets the entry titled with its name, storing the flow's host and port and `self._password or ""`; the flow's password and unique id are kept, and so is its name on a connection error |
| EsphomeConfigFlow.StepUser | homeassistant/components/esphome/config_flow.py:31-53 | never fails; without input the user form is shown; with input the typed host and port are kept, a connection error re-shows the form with the classified error, a device with a password gets the password form, and any other device gets the entry for the typed host and port; the returned flow keeps the password and unique id and takes the device's name once connected |
| EsphomeConfigFlow.StepDiscoveryConfirm | homeassistant/components/esphome/config_flow.py:86-94 | the confirmation form names the node; confirming fails its assert exactly without a host or port, keeps them, re-shows the user form on a connection error, asks for the password of a device that uses one, and otherwise creates the entry for the discovered host and port with the flow's unique id; the returned flow keeps the password and unique id and takes the device's name once connected |
| EsphomeConfigFlow.StepAuthenticate | homeassistant/components/esphome/config_flow.py:158-178 | a refused login re-shows the password form with `invalid_auth`; an accepted one creates the entry titled with the flow's name, storing the flow's host and port and the given password, with the flow's unique id |
| EsphomeConfigFlow.NodeNameOfLocalHostname | homeassistant/components/esphome/config_flow.py:100-102 | the hostname `<node>.local.` gives the node name `<node>` |
| EsphomeConfigFlow.LivingroomNodeName | homeassistant/components/esphome/config_flow.py:100-102 | `livingroom.local.` gives `livingroom` |
| EsphomeConfigFlow.LocalName | homeassistant/components/esphome/config_flow.py:101 | `hostname[:-1]` is the hostname without its last character, and `""` for an empty hostname |
| EsphomeConfigFlow.NodeName | homeassistant/components/esphome/config_flow.py:101-102 | the node name is the hostname without its last seven characters (`.local.`), and `""` for hostnames of at most seven |
| EsphomeConfigFlow.Address | homeassistant/components/esphome/config_flow.py:103 | the advertised `address` property, and otherwise the hostname without its final character |
| EsphomeConfigFlow.AlreadyConfigured | homeassistant/components/esphome/config_flow.py:111-127 | an entry is already configured exactly when its host is the address or the discovered IP, or it is loaded with a device of the node's name |
| EsphomeConfigFlow.Duplicate | homeassistant/components/esphome/config_flow.py:106-127 | an entry blocks the discovery exactly when its unique id is the node name, its host is the address or the IP, or it is loaded with a device of the node's name |
| EsphomeConfigFlow.Backfill | homeassistant/components/esphome/config_flow.py:129-135 | only an entry without a unique id gets the node name as unique id and the new host |
| EsphomeConfigFlow.StepZeroconf | homeassistant/components/esphome/config_flow.py:96-143 | aborts with `already_configured` exactly when some entry is a duplicate, and then changes at most that entry, giving the first entry whose unique id is the node name the announced IP as host; otherwise it stores host, port and node name, changes no entry and shows the confirmation form |
| EsphomeConfigFlow.ZeroconfRefreshesUniqueIdMatch | homeassistant/components/esphome/config_flow.py:105-109 | when an entry's unique id is the node name, the first such entry gets the announced IP as host, nothing else changes, and the flow aborts with `already_configured` |
| EsphomeConfigFlow.ZeroconfBackfillsFirstConfiguredEntry | homeassistant/components/esphome/config_flow.py:111-137 | without a unique-id match, the first already-configured entry is the one backfilled |
| EsphomeConfigFlow.UserFlowWithoutPassword | homeassistant/components/esphome/config_flow.py:70-84 | a device without a password gets its entry at once, with an empty password |
| EsphomeConfigFlow.UserFlowWithPassword | homeassistant/components/esphome/config_flow.py:158-167 | a device with a password first asks for it, then stores the accepted password |
| EsphomeConfigFlow.WrongPasswordReprompts | homeassistant/components/esphome/config_flow.py:162-166 | a refused password re-shows the password form with `invalid_auth` |
| EsphomeConfigFlow.ConnectionFailureReshowsUserForm | homeassistant/components/esphome/config_flow.py:74-76 | a failed connection re-shows the user form with what was typed and the classified error |
| EsphomeConfigFlow.DiscoveredNodeBecomesEntry | homeassistant/components/esphome/config_flow.py:86-143 | a new node, once confirmed, becomes an entry for the announced IP and port whose unique id is the node name |
| NetworkSourceIp.AddressesOf | homeassistant/components/network/__init__.py:42 | one address per configured IPv4 entry, in order |
| NetworkSourceIp.Contribution | homeassistant/components/network/__init__.py:41-42 | an adapter contributes nothing exactly when it is disabled or has no IPv4 address, and otherwise its addresses in order |
| NetworkSourceIp.Candidates | homeassistant/components/network/__init__.py:39-42 | there is no candidate exactly when every adapter is disabled or has no IPv4 address |
| NetworkSourceIp.CandidatesConcat | homeassistant/components/network/__init__.py:39-42 | the candidates of a list of adapters are those of each adapter, in adapter order |
| NetworkSourceIp.CandidateMembership | homeassistant/components/network/__init__.py:40-42 | an address is a candidate exactly when an enabled adapter has it configured |
| NetworkSourceIp.GetSourceIp | homeassistant/components/network/__init__.py:35-45 | IndexError exactly when there is no candidate; the OS's choice when it is a candidate; the first candidate otherwise; every result is a candidate |

## Left out

- `get_rfx_object` and `_create_rfx`: packet parsing and connection setup belong to the external RFXtrx library, whose grammar is not visible. A parsed packet is an abstract `RfxEvent` with a device, raw bytes and values.
- `_get_device_lookup`, `async_setup`, `async_setup_entry`, `async_unload_entry`, `connect_auto_add` and the `send` service: framework plumbing that needs the library's parser, executor jobs and timeouts.
- The device-registry lookup in `async_handle_receive` (lines 304-308) is I/O. The bus event payload therefore has no `device_id` field. The dispatcher call is represented by the `Dispatched` result.
- `RfxtrxEntity.device_info`: the device-registry metadata (identifiers from the identity, name from the type and id strings) is not modelled, because the device registry is outside the model.
- `RfxtrxEntity.should_poll` and `assumed_state`: constant properties.
- `RfxtrxEntity._handle_event` and `RfxtrxCommandEntity._async_send`: overridden per platform, or transmit to the hardware.
- The voluptuous schemas and `DATA_TYPES`: only the schema defaults that `_add_device` uses are modelled. `off_delay` and `device_class` are not fields of `DeviceConfig`.
- RfxtrxIds.BytearrayString: the field is taken to be text already. `cv.string` (line 105) first turns numbers into text and rejects `None`, lists and dictionaries with its own messages. That coercion and those messages are not modelled.
- RfxtrxIds.Pt2262DeviceId: widths are natural numbers. A negative width, which the schema rejects, would make Python raise ValueError.
- RfxtrxIds.Pt2262DeviceId: the result is the decoded text. Python returns `bytes` and get_device_id decodes them as ASCII.
- RfxtrxIds.FindPossiblePt2262Device: the log message with the suggested `data_bits` and commands is not modelled. Only the returned id is.
- EsphomeConfigFlow: the `APIClient` connect, disconnect and zeroconf instance are network I/O. Each step gets the device's answer as a `ConnectOutcome` or `LoginOutcome`. Entry reloads, `title_placeholders` and the framework's `already_in_progress` check are framework behaviour and are left out.
- NetworkSourceIp.GetSourceIp: the operating system's socket lookup `util.async_get_source_ip` is an input. The `Network` class and the websocket handlers are left out.
- The homekit light tests, the deCONZ event tests, the MySensors fixtures and the guardian, nest and epsonworkforce sensors are test scaffolding or thin wrappers over code that is not part of this model.

=== FILE: esphome_flow.dfy ===
/**
 The ESPHome setup wizard (EsphomeFlowHandler in
 homeassistant/components/esphome/config_flow.py) as a state machine. Each
 step takes the flow's state and the user's input, and returns the new
 state and what the wizard shows next: a form, a created entry or an abort.
 The device API client is not called: each step receives the answer the
 device gives as an outcome parameter.
 */
module EsphomeConfigFlow {
  import opened Wrappers
  import opened Strings

  /** The port the user form proposes when none is known yet. */
  const DefaultPort: int := 6053

  /** The flow's own state: `_host`, `_port`, `_password`, the context's name and unique id. */
  datatype FlowState = FlowState(
    host: Option<string>,
    port: Option<int>,
    password: Option<string>,
    name: Option<string>,
    uniqueId: Option<string>)

  const NewFlow := FlowState(None, None, None, None, None)

  /** The user form's fields. */
  datatype UserInput = UserInput(host: string, port: int)

  /** What the device reports about itself. */
  datatype DeviceInfo = DeviceInfo(name: string, usesPassword: bool)

  /** The answer to connect + device_info: the device's info, or an APIConnectionError with its message. */
  datatype ConnectOutcome = Connected(info: DeviceInfo) | ConnectError(message: string)

  /** The answer to connect(login=True): accepted, or an APIConnectionError. */
  datatype LoginOutcome = LoggedIn | LoginRejected

  /** The data of a config entry; an entry written by this flow has all three fields. */
  datatype EntryData = EntryData(host: Option<string>, port: Option<int>, password: Option<string>)

  datatype Form =
    | UserForm(hostDefault: Option<string>, portDefault: int)
    | DiscoveryConfirmForm(name: Option<string>)
    | AuthenticateForm(name: Option<string>)

  /** A created entry carries the flow's unique id, as `async_create_entry` stores it. */
  datatype FlowResult =
    | ShowForm(form: Form, errors: map<string, string>)
    | CreateEntry(title: string, data: EntryData, uniqueId: Option<string>)
    | Abort(reason: string)

  /** The flow's state after a step, and the step's result. */
  datatype Step = Step(flow: FlowState, result: FlowResult)

  /** `errors["base"] = error` when there is an error, no errors otherwise. */
  function Errors(error: Option<string>): (errors: map<string, string>)
    ensures error.None? <==> errors == map[]
    ensures error.Some? ==> errors == map["base" := error.value]
  {
    match error
    case None => map[]
    case Some(e) =>
      assert "base" in map["base" := e];
      map["base" := e]
  }

  /**
   The user form with `default=self._host or vol.UNDEFINED` and
   `default=self._port or 6053`: empty and zero count as unknown.
   */
  function UserFormFor(flow: FlowState, error: Option<string>): (r: FlowResult)
    ensures r.ShowForm? && r.form.UserForm? && r.errors == Errors(error)
    ensures flow.port.Some? && flow.port.value != 0 ==> r.form.portDefault == flow.port.value
    ensures flow.port.None? || flow.port == Some(0) ==> r.form.portDefault == DefaultPort
    ensures r.form.hostDefault.Some? <==> flow.host.Some? && flow.host.value != ""
    ensures r.form.hostDefault.Some? ==> r.form.hostDefault == flow.host
  {
    var host := if flow.host.Some? && flow.host.value != "" then flow.host else None;
    var port := if flow.port.Some? && flow.port.value != 0 then flow.port.value else DefaultPort;
    ShowForm(UserForm(host, port), Errors(error))
  }

  function AuthenticateFormFor(flow: FlowState, error: Option<string>): (r: FlowResult)
    ensures r.ShowForm? && r.form == AuthenticateForm(flow.name)
    ensures error.None? ==> r.errors == map[]
    ensures error.Some? ==> r.errors == map["base" := error.value]
  {
    ShowForm(AuthenticateForm(flow.name), Errors(error))
  }

  /** fetch_device_info's classification of an APIConnectionError by its message. */
  function ClassifyConnectionError(message: string): (error: string)
    ensures error == "resolve_error" <==> exists i: nat :: OccursAt("resolving", message, i)
    ensures error == "connection_error" <==> !exists i: nat :: OccursAt("resolving", message, i)
  {
    if Contains(message, "resolving") then "resolve_error" else "connection_error"
  }

  /** fetch_device_info: the device's info, or the error code to show on the user form. */
  function FetchDeviceInfo(outcome: ConnectOutcome): (r: Result<DeviceInfo, string>)
    ensures r.Ok? <==> outcome.Connected?
    ensures r.Ok? ==> r.value == outcome.info
    ensures r.Err? ==> r.error in {"resolve_error", "connection_error"}
    ensures r.Err? ==> r.error == ClassifyConnectionError(outcome.message)
  {
    match outcome
    case Connected(info) => Ok(info)
    case ConnectError(message) => Err(ClassifyConnectionError(message))
  }

  /** try_login: `invalid_auth` when the device refuses the login. */
  function TryLogin(outcome: LoginOutcome): (error: Option<string>)
    ensures error.Some? <==> outcome.LoginRejected?
    ensures error.Some? ==> error.value == "invalid_auth"
  {
    if outcome.LoginRejected? then Some("invalid_auth") else None
  }

  /**
   _async_get_entry: the entry titled with the node name, storing host, port
   and password, where `""` stands for no password (`self._password or ""`).
   */
  function GetEntry(flow: FlowState): (r: Result<FlowResult, Fault>)
    ensures r.Err? <==> flow.name.None?
    ensures r.Ok? ==> r.value.CreateEntry? && r.value.title == flow.name.value
    ensures r.Ok? ==> r.value.data.host == flow.host && r.value.data.port == flow.port
    ensures r.Ok? ==> r.value.data.password.Some?
    ensures r.Ok? ==> (r.value.data.password == Some("") <==> flow.password.None? || flow.password == Some(""))
    ensures r.Ok? && flow.password.Some? ==> r.value.data.password == flow.password
    ensures r.Ok? ==> r.value.uniqueId == flow.uniqueId
  {
    if flow.name.None? then Err(AssertionError)
    else
      var password := if flow.password.Some? && flow.password.value != "" then flow.password.value else "";
      Ok(CreateEntry(flow.name.value, EntryData(flow.host, flow.port, Some(password)), flow.uniqueId))
  }

  /** _set_user_input: remember the host and port the user typed. */
  function SetUserInput(flow: FlowState, input: Option<UserInput>): (r: FlowState)
    ensures input.None? ==> r == flow
    ensures input.Some? ==> r.host == Some(input.value.host) && r.port == Some(input.value.port)
    ensures r.password == flow.password && r.name == flow.name && r.uniqueId == flow.uniqueId
  {
    match input
    case None => flow
    case Some(i) => flow.(host := Some(i.host), port := Some(i.port))
  }

  /**
   _async_authenticate_or_add: ask the device for its info. A connection
   error re-shows the user form with the classified error; otherwise the
   device's name becomes the flow's name and a device that uses a password
   leads to the authenticate form, any other straight to the entry.
   */
  function AuthenticateOrAdd(flow: FlowState, input: Option<UserInput>, outcome: ConnectOutcome): (r: Result<Step, Fault>)
    ensures r.Err? <==> input.None? && (flow.host.None? || flow.port.None?)
    ensures r.Ok? && input.Some? ==> r.value.flow.host == Some(input.value.host) && r.value.flow.port == Some(input.value.port)
    ensures r.Ok? && input.None? ==> r.value.flow.host == flow.host && r.value.flow.port == flow.port
    ensures r.Ok? && outcome.ConnectError? ==>
      r.value.result == UserFormFor(r.value.flow, Some(ClassifyConnectionError(outcome.message)))
    ensures r.Ok? && outcome.ConnectError? ==> !r.value.result.CreateEntry?
    ensures r.Ok? && outcome.Connected? ==> r.value.flow.name == Some(outcome.info.name)
    ensures r.Ok? && outcome.Connected? && outcome.info.usesPassword ==>
      r.value.result == ShowForm(AuthenticateForm(Some(outcome.info.name)), map[])
    ensures r.Ok? && outcome.Connected? && !outcome.info.usesPassword ==>
      && r.value.result.CreateEntry? && r.value.result.title == outcome.info.name
      && r.value.result.data.host == r.value.flow.host && r.value.result.data.port == r.value.flow.port
      && r.value.result.data.password == Some(flow.password.GetOr(""))
      && r.value.result.uniqueId == flow.uniqueId
    ensures r.Ok? ==> r.value.flow.password == flow.password && r.value.flow.uniqueId == flow.uniqueId
    ensures r.Ok? && outcome.ConnectError? ==> r.value.flow.name == flow.name
  {
    var flow1 := SetUserInput(flow, input);
    if flow1.host.None? || flow1.port.None? then Err(AssertionError)
    else
      match FetchDeviceInfo(outcome)
      case Err(error) => Ok(Step(flow1, UserFormFor(flow1, Some(error))))
      case Ok(info) =>
        var flow2 := flow1.(name := Some(info.name));
        if info.usesPassword then Ok(Step(flow2, AuthenticateFormFor(flow2, None)))
        else Ok(Step(flow2, GetEntry(flow2).value))
  }

  /** async_step_user: the user form, or, once it is filled in, the connection attempt. */
  function StepUser(flow: FlowState, input: Option<UserInput>, outcome: ConnectOutcome): (r: Result<Step, Fault>)
    ensures r.Ok?
    ensures input.None? ==> r.value == Step(flow, UserFormFor(flow, None))
    ensures input.Some? ==> r.value.flow.host == Some(input.value.host) && r.value.flow.port == Some(input.value.port)
    ensures r.value.flow.password == flow.password && r.value.flow.uniqueId == flow.uniqueId
    ensures input.Some? && outcome.Connected? ==> r.value.flow.name == Some(outcome.info.name)
    ensures input.Some? && outcome.ConnectError? ==> r.value.flow.name == flow.name
    ensures input.Some? && outcome.ConnectError? ==>
      r.value.result == UserFormFor(r.value.flow, Some(ClassifyConnectionError(outcome.message)))
    ensures input.Some? && outcome.Connected? && outcome.info.usesPassword ==>
      r.value.result == ShowForm(AuthenticateForm(Some(outcome.info.name)), map[])
    ensures input.Some? && outcome.Connected? && !outcome.info.usesPassword ==>
      r.value.result == CreateEntry(outcome.info.name,
        EntryData(Some(input.value.host), Some(input.value.port), Some(flow.password.GetOr(""))), flow.uniqueId)
  {
    if input.None? then Ok(Step(flow, UserFormFor(flow, None)))
    else AuthenticateOrAdd(flow, input, outcome)
  }

  /** async_step_discovery_confirm: ask to confirm the discovered node, then connect to it. */
  function StepDiscoveryConfirm(flow: FlowState, confirmed: bool, outcome: ConnectOutcome): (r: Result<Step, Fault>)
    ensures !confirmed ==> r == Ok(Step(flow, ShowForm(DiscoveryConfirmForm(flow.name), map[])))
    ensures confirmed ==> (r.Err? <==> flow.host.None? || flow.port.None?)
    ensures confirmed && r.Ok? ==> r.value.flow.host == flow.host && r.value.flow.port == flow.port
    ensures r.Ok? ==> r.value.flow.password == flow.password && r.value.flow.uniqueId == flow.uniqueId
    ensures confirmed && r.Ok? && outcome.Connected? ==> r.value.flow.name == Some(outcome.info.name)
    ensures confirmed && r.Ok? && outcome.ConnectError? ==> r.value.flow.name == flow.name
    ensures confirmed && r.Ok? && outcome.ConnectError? ==>
      r.value.result == UserFormFor(r.value.flow, Some(ClassifyConnectionError(outcome.message)))
    ensures confirmed && r.Ok? && outcome.Connected? && outcome.info.usesPassword ==>
      r.value.result == ShowForm(AuthenticateForm(Some(outcome.info.name)), map[])
    ensures confirmed && r.Ok? && outcome.Connected? && !outcome.info.usesPassword ==>
      r.value.result == CreateEntry(outcome.info.name, EntryData(flow.host, flow.port, Some(flow.password.GetOr(""))), flow.uniqueId)
  {
    if confirmed then AuthenticateOrAdd(flow, None, outcome)
    else Ok(Step(flow, ShowForm(DiscoveryConfirmForm(flow.name), map[])))
  }

  /**
   async_step_authenticate: the password form, or, once a password is
   given, the login attempt: a refused login re-shows the form with
   `invalid_auth`, an accepted one creates the entry.
   */
  function StepAuthenticate(flow: FlowState, password: Option<string>, outcome: LoginOutcome): (r: Result<Step, Fault>)
    ensures password.None? ==> r == Ok(Step(flow, AuthenticateFormFor(flow, None)))
    ensures password.Some? ==> (r.Err? <==> flow.host.None? || flow.port.None? || (outcome.LoggedIn? && flow.name.None?))
    ensures r.Ok? && password.Some? ==> r.value.flow == flow.(password := password)
    ensures r.Ok? && password.Some? && outcome.LoginRejected? ==>
      r.value.result == ShowForm(AuthenticateForm(flow.name), map["base" := "invalid_auth"])
    ensures r.Ok? && password.Some? && outcome.LoggedIn? ==>
      r.value.result == CreateEntry(flow.name.value, EntryData(flow.host, flow.port, password), flow.uniqueId)
  {
    if password.None? then Ok(Step(flow, AuthenticateFormFor(flow, None)))
    else
      var flow1 := flow.(password := password);
      if flow1.host.None? || flow1.port.None? then Err(AssertionError)
      else
        match TryLogin(outcome)
        case Some(error) => Ok(Step(flow1, AuthenticateFormFor(flow1, Some(error))))
        case None =>
          var entry :- GetEntry(flow1);
          Ok(Step(flow1, entry))
  }

  // ---------------------------------------------------------------------------
  // Zeroconf discovery

  /** A zeroconf announcement: hostname, IP address, port and the optional `address` property. */
  datatype DiscoveryInfo = DiscoveryInfo(hostname: string, host: string, port: int, address: Option<string>)

  /** Whether the integration has set an entry up, and the device info it got (`DomainData`). */
  datatype EntryRuntime = NotLoaded | Loaded(deviceName: Option<string>)

  /** An existing config entry of the integration. */
  datatype ConfigEntry = ConfigEntry(uniqueId: Option<string>, data: EntryData, runtime: EntryRuntime)

  /** The result of the zeroconf step, with the config entries it may have updated. */
  datatype ZeroconfOutcome = ZeroconfOutcome(step: Step, entries: seq<ConfigEntry>)

  /** `hostname[:-1]`: the hostname without its final dot. */
  function LocalName(hostname: string): (r: string)
    ensures |hostname| >= 1 ==> r + [hostname[|hostname| - 1]] == hostname
    ensures hostname == "" ==> r == ""
  {
    DropLast(hostname, 1)
  }

  /** `local_name[:-len(".local")]`: the node name. */
  function NodeName(hostname: string): (r: string)
    ensures |hostname| >= 7 ==> r + hostname[|hostname| - 7..] == hostname
    ensures |hostname| <= 7 ==> r == ""
  {
    DropLast(LocalName(hostname), 6)
  }

  /** A hostname of the form `<node>.local.` gives back `<node>`. */
  lemma NodeNameOfLocalHostname(node: string)
    ensures NodeName(node + ".local.") == node
  {
    var h := node + ".local.";
    assert LocalName(h) == node + ".local";
    assert (node + ".local")[..|node|] == node;
  }

  lemma LivingroomNodeName()
    ensures NodeName("livingroom.local.") == "livingroom"
  {
    NodeNameOfLocalHostname("livingroom");
  }

  /** `properties.get("address", local_name)`. */
  function Address(info: DiscoveryInfo): (a: string)
    ensures info.address.Some? ==> a == info.address.value
    ensures info.address.None? && |info.hostname| >= 1 ==> a + [info.hostname[|info.hostname| - 1]] == info.hostname
  {
    info.address.GetOr(LocalName(info.hostname))
  }

  /**
   The loop's test: the entry's host is the advertised address or the
   discovered IP, or else the entry is loaded and its device has the node's name.
   */
  predicate AlreadyConfigured(entry: ConfigEntry, address: string, host: string, nodeName: string)
    ensures AlreadyConfigured(entry, address, host, nodeName) <==>
      || entry.data.host == Some(address)
      || entry.data.host == Some(host)
      || (entry.runtime.Loaded? && entry.runtime.deviceName == Some(nodeName))
  {
    if entry.data.host.Some? && entry.data.host.value in [address, host] then true
    else entry.runtime.Loaded? && entry.runtime.deviceName.Some? && entry.runtime.deviceName.value == nodeName
  }

  /** An entry the discovery must not duplicate: same unique id, or already configured. */
  predicate Duplicate(entry: ConfigEntry, info: DiscoveryInfo)
    ensures Duplicate(entry, info) <==>
      || entry.uniqueId == Some(NodeName(info.hostname))
      || entry.data.host in {Some(Address(info)), Some(info.host)}
      || (entry.runtime.Loaded? && entry.runtime.deviceName == Some(NodeName(info.hostname)))
  {
    entry.uniqueId == Some(NodeName(info.hostname))
    || AlreadyConfigured(entry, Address(info), info.host, NodeName(info.hostname))
  }

  /** The position of the first element satisfying `p`. */
  function FirstIndex<T>(s: seq<T>, p: T -> bool): (r: Option<nat>)
    ensures r.None? <==> forall j :: 0 <= j < |s| ==> !p(s[j])
    ensures r.Some? ==> r.value < |s| && p(s[r.value]) && forall j :: 0 <= j < r.value ==> !p(s[j])
    decreases |s|
  {
    if |s| == 0 then None
    else if p(s[0]) then Some(0)
    else
      match FirstIndex(s[1..], p)
      case None => None
      case Some(i) => Some(i + 1)
  }

  /** The backwards-compatible update: an entry without a unique id gets the node name and the new host. */
  function Backfill(entry: ConfigEntry, host: string, nodeName: string): (e: ConfigEntry)
    ensures entry.uniqueId.None? || entry.uniqueId == Some("") ==>
      e == entry.(uniqueId := Some(nodeName), data := entry.data.(host := Some(host)))
    ensures entry.uniqueId.Some? && entry.uniqueId != Some("") ==> e == entry
  {
    if entry.uniqueId.None? || entry.uniqueId.value == "" then
      entry.(uniqueId := Some(nodeName), data := entry.data.(host := Some(host)))
    else entry
  }

  /**
   async_step_zeroconf: abort with `already_configured` when an entry has the
   node name as unique id (its host is refreshed) or is already configured
   (an entry without unique id is backfilled); otherwise remember the node
   and ask the user to confirm it.
   */
  function StepZeroconf(flow: FlowState, info: DiscoveryInfo, entries: seq<ConfigEntry>): (r: ZeroconfOutcome)
    ensures |r.entries| == |entries|
    ensures r.step.result.Abort? <==> exists i :: 0 <= i < |entries| && Duplicate(entries[i], info)
    ensures r.step.result.Abort? ==> r.step.result.reason == "already_configured"
    ensures r.step.flow.uniqueId == Some(NodeName(info.hostname))
    ensures !r.step.result.Abort? ==>
      && r.entries == entries
      && r.step.flow == flow.(host := Some(info.host), port := Some(info.port),
                              name := Some(NodeName(info.hostname)), uniqueId := Some(NodeName(info.hostname)))
      && r.step.result == ShowForm(DiscoveryConfirmForm(Some(NodeName(info.hostname))), map[])
    ensures r.step.result.Abort? ==> exists i :: (0 <= i < |entries| && Duplicate(entries[i], info)
      && (forall j :: 0 <= j < |entries| && j != i ==> r.entries[j] == entries[j]))
    ensures forall i ::
      (0 <= i < |entries| && entries[i].uniqueId == Some(NodeName(info.hostname))
       && forall j :: 0 <= j < i ==> entries[j].uniqueId != Some(NodeName(info.hostname))) ==>
        r.entries == entries[i := entries[i].(data := entries[i].data.(host := Some(info.host)))]
  {
    var nodeName := NodeName(info.hostname);
    var address := Address(info);
    var flow1 := flow.(uniqueId := Some(nodeName));
    match FirstIndex(entries, (e: ConfigEntry) => e.uniqueId == Some(nodeName))
    case Some(i) =>
      assert Duplicate(entries[i], info);
      var updated := entries[i].(data := entries[i].data.(host := Some(info.host)));
      ZeroconfOutcome(Step(flow1, Abort("already_configured")), entries[i := updated])
    case None =>
      match FirstIndex(entries, (e: ConfigEntry) => AlreadyConfigured(e, address, info.host, nodeName))
      case Some(i) =>
        assert Duplicate(entries[i], info);
        ZeroconfOutcome(Step(flow1, Abort("already_configured")), entries[i := Backfill(entries[i], info.host, nodeName)])
      case None =>
        assert forall i :: 0 <= i < |entries| ==> !Duplicate(entries[i], info);
        var flow2 := flow1.(host := Some(info.host), port := Some(info.port), name := Some(nodeName));
        ZeroconfOutcome(Step(flow2, ShowForm(DiscoveryConfirmForm(Some(nodeName)), map[])), entries)
  }

  /**
   When no entry carries the node name as unique id, the first already
   configured entry is the one updated: backfilled with the node name and
   host when it had no unique id, left alone otherwise.
   */
  lemma ZeroconfBackfillsFirstConfiguredEntry(flow: FlowState, info: DiscoveryInfo, entries: seq<ConfigEntry>, i: nat)
    requires forall j :: 0 <= j < |entries| ==> entries[j].uniqueId != Some(NodeName(info.hostname))
    requires i < |entries| && AlreadyConfigured(entries[i], Address(info), info.host, NodeName(info.hostname))
    requires forall j :: 0 <= j < i ==> !AlreadyConfigured(entries[j], Address(info), info.host, NodeName(info.hostname))
    ensures StepZeroconf(flow, info, entries).step.result == Abort("already_configured")
    ensures StepZeroconf(flow, info, entries).entries == entries[i := Backfill(entries[i], info.host, NodeName(info.hostname))]
  {
    var nodeName := NodeName(info.hostname);
    var p := (e: ConfigEntry) => AlreadyConfigured(e, Address(info), info.host, nodeName);
    var q := (e: ConfigEntry) => e.uniqueId == Some(nodeName);
    assert FirstIndex(entries, q).None?;
    assert FirstIndex(entries, p) == Some(i);
  }

  /**
   When an entry already carries the node name as unique id, the first such
   entry is the one updated: its host becomes the announced IP and nothing
   else about it, or about any other entry, changes.
   */
  lemma ZeroconfRefreshesUniqueIdMatch(flow: FlowState, info: DiscoveryInfo, entries: seq<ConfigEntry>, i: nat)
    requires i < |entries| && entries[i].uniqueId == Some(NodeName(info.hostname))
    requires forall j :: 0 <= j < i ==> entries[j].uniqueId != Some(NodeName(info.hostname))
    ensures StepZeroconf(flow, info, entries).step.result == Abort("already_configured")
    ensures StepZeroconf(flow, info, entries).entries ==
      entries[i := entries[i].(data := entries[i].data.(host := Some(info.host)))]
  {
  }

  // ---------------------------------------------------------------------------
  // Whole runs of the wizard

  /** A user-started flow for a device without a password creates the entry at once, with `""` as password. */
  lemma UserFlowWithoutPassword(host: string, port: int, info: DeviceInfo)
    requires !info.usesPassword
    ensures StepUser(NewFlow, Some(UserInput(host, port)), Connected(info)).Ok?
    ensures StepUser(NewFlow, Some(UserInput(host, port)), Connected(info)).value.result ==
      CreateEntry(info.name, EntryData(Some(host), Some(port), Some("")), None)
  {
  }

  /**
   A user-started flow for a device with a password asks for it; the
   accepted password is stored in the entry.
   */
  lemma UserFlowWithPassword(host: string, port: int, info: DeviceInfo, password: string)
    requires info.usesPassword
    ensures
      var first := StepUser(NewFlow, Some(UserInput(host, port)), Connected(info));
      && first.Ok?
      && first.value.result == ShowForm(AuthenticateForm(Some(info.name)), map[])
      && StepAuthenticate(first.value.flow, Some(password), LoggedIn).Ok?
      && StepAuthenticate(first.value.flow, Some(password), LoggedIn).value.result ==
           CreateEntry(info.name, EntryData(Some(host), Some(port), Some(password)), None)
  {
  }

  /** A refused password re-shows the password form with `invalid_auth` and creates nothing. */
  lemma WrongPasswordReprompts(flow: FlowState, password: string)
    requires flow.host.Some? && flow.port.Some?
    ensures StepAuthenticate(flow, Some(password), LoginRejected) ==
      Ok(Step(flow.(password := Some(password)), ShowForm(AuthenticateForm(flow.name), map["base" := "invalid_auth"])))
  {
  }

  /** A connection failure re-shows the user form, keeping what the user typed, with the classified error. */
  lemma ConnectionFailureReshowsUserForm(flow: FlowState, host: string, port: int, message: string)
    requires host != "" && port != 0
    ensures StepUser(flow, Some(UserInput(host, port)), ConnectError(message)) ==
      Ok(Step(flow.(host := Some(host), port := Some(port)),
              ShowForm(UserForm(Some(host), port), map["base" := ClassifyConnectionError(message)])))
  {
  }

  /**
   A discovered node that is not configured yet, once confirmed, becomes an
   entry for the announced IP and port, titled with the device's own name
   and carrying the node name as its unique id.
   */
  lemma DiscoveredNodeBecomesEntry(info: DiscoveryInfo, entries: seq<ConfigEntry>, device: DeviceInfo)
    requires forall i :: 0 <= i < |entries| ==> !Duplicate(entries[i], info)
    requires !device.usesPassword
    ensures
      var discovered := StepZeroconf(NewFlow, info, entries);
      && discovered.step.result == ShowForm(DiscoveryConfirmForm(Some(NodeName(info.hostname))), map[])
      && StepDiscoveryConfirm(discovered.step.flow, true, Connected(device)).Ok?
      && StepDiscoveryConfirm(discovered.step.flow, true, Connected(device)).value.result ==
           CreateEntry(device.name, EntryData(Some(info.host), Some(info.port), Some("")), Some(NodeName(info.hostname)))
  {
  }
}

=== FILE: hex.dfy ===
/**
 Hexadecimal text as the Python runtime reads and writes it:
 `bytearray.fromhex`, `binascii.hexlify`, `f"{n:x}"` and `hex(n)`.
 */
module Hex {
  import opened Wrappers

  /** One element of a Python `bytearray`. */
  type Byte = x: int | 0 <= x < 256

  predicate IsHexDigit(c: char) {
    '0' <= c <= '9' || 'a' <= c <= 'f' || 'A' <= c <= 'F'
  }

  predicate IsLowerHexDigit(c: char) {
    '0' <= c <= '9' || 'a' <= c <= 'f'
  }

  /** Characters `bytearray.fromhex` skips between byte pairs: space and `\t` through `\r`. */
  predicate IsAsciiSpace(c: char) {
    c == ' ' || '\t' <= c <= '\r'
  }

  /** Every character is a lower-case hexadecimal digit. */
  predicate IsLowerHex(s: string) {
    forall i :: 0 <= i < |s| ==> IsLowerHexDigit(s[i])
  }

  /** Canonical hex text: lower-case digits only, an even number of them, no separators. */
  predicate IsPlainHex(s: string) {
    |s| % 2 == 0 && IsLowerHex(s)
  }

  function DigitValue(c: char): (v: nat)
    requires IsHexDigit(c)
    ensures v < 16
    ensures c == '0' <==> v == 0
  {
    if '0' <= c <= '9' then c as int - '0' as int
    else if 'a' <= c <= 'f' then c as int - 'a' as int + 10
    else c as int - 'A' as int + 10
  }

  /** The lower-case digit for a value below 16; `DigitValue` reads it back. */
  function LowerDigit(v: nat): (c: char)
    requires v < 16
    ensures IsLowerHexDigit(c)
    ensures DigitValue(c) == v
  {
    if v < 10 then ('0' as int + v) as char else ('a' as int + v - 10) as char
  }

  lemma LowerDigitOfValue(c: char)
    requires IsLowerHexDigit(c)
    ensures LowerDigit(DigitValue(c)) == c
  {
  }

  /** Every character is a hexadecimal digit or ASCII whitespace. */
  predicate HexOrSpace(s: string) {
    forall i :: 0 <= i < |s| ==> IsHexDigit(s[i]) || IsAsciiSpace(s[i])
  }

  /** How many characters of `s` are hexadecimal digits. */
  function HexDigitCount(s: string): nat
    decreases |s|
  {
    if |s| == 0 then 0 else (if IsHexDigit(s[0]) then 1 else 0) + HexDigitCount(s[1..])
  }

  /**
   `bytearray.fromhex(s)`: byte pairs of hex digits in either case, with ASCII
   whitespace allowed before any pair; `None` where Python raises ValueError
   (a non-hex character, or a pair cut short).
   */
  function FromHex(s: string): (r: Option<seq<Byte>>)
    ensures r.Some? ==> 2 * |r.value| <= |s|
    ensures IsPlainHex(s) ==> r.Some? && 2 * |r.value| == |s|
    decreases |s|
  {
    if |s| == 0 then Some([])
    else if IsAsciiSpace(s[0]) then FromHex(s[1..])
    else if |s| >= 2 && IsHexDigit(s[0]) && IsHexDigit(s[1]) then
      match FromHex(s[2..])
      case Some(rest) => Some([DigitValue(s[0]) * 16 + DigitValue(s[1])] + rest)
      case None => None
    else None
  }

  /** `f"{b:02x}"`: the two lower-case digits of one byte. */
  function ByteHex(b: Byte): (s: string)
    ensures |s| == 2 && IsLowerHex(s)
    ensures DigitValue(s[0]) * 16 + DigitValue(s[1]) == b
  {
    [LowerDigit(b / 16), LowerDigit(b % 16)]
  }

  /**
   `binascii.hexlify(data).decode("ASCII")`, which is also
   `"".join(f"{x:02x}" for x in data)`: two lower-case digits per byte.
   */
  function Hexlify(data: seq<Byte>): (s: string)
    ensures |s| == 2 * |data|
    ensures IsPlainHex(s)
  {
    if |data| == 0 then "" else ByteHex(data[0]) + Hexlify(data[1..])
  }

  /**
   What `bytearray.fromhex` accepts: only hex digits and whitespace, and
   exactly two digits per byte it returns. Any other character, or an odd
   number of digits, means rejection.
   */
  lemma {:induction false} FromHexAccepts(s: string)
    requires FromHex(s).Some?
    ensures HexOrSpace(s)
    ensures 2 * |FromHex(s).value| == HexDigitCount(s)
    decreases |s|
  {
    if |s| > 0 {
      if IsAsciiSpace(s[0]) {
        FromHexAccepts(s[1..]);
      } else {
        assert s[1..][1..] == s[2..];
        FromHexAccepts(s[2..]);
      }
    }
  }

  /** Decoding what `Hexlify` wrote gives back the bytes. */
  lemma {:induction false} FromHexHexlify(data: seq<Byte>)
    ensures FromHex(Hexlify(data)) == Some(data)
    decreases |data|
  {
    if |data| > 0 {
      var s := Hexlify(data);
      assert s[2..] == Hexlify(data[1..]);
      FromHexHexlify(data[1..]);
      assert [data[0]] + data[1..] == data;
    }
  }

  /** Canonical hex text survives a decode followed by an encode. */
  lemma {:induction false} HexlifyFromHex(s: string)
    requires IsPlainHex(s)
    ensures FromHex(s).Some? && Hexlify(FromHex(s).value) == s
    decreases |s|
  {
    if |s| > 0 {
      assert IsPlainHex(s[2..]);
      HexlifyFromHex(s[2..]);
      var data := FromHex(s).value;
      assert data[1..] == FromHex(s[2..]).value;
      LowerDigitOfValue(s[0]);
      LowerDigitOfValue(s[1]);
      assert ByteHex(data[0]) == s[..2];
      assert s == s[..2] + s[2..];
    }
  }

  /** `f"{n:x}"`: lower-case hexadecimal without leading zeros. */
  function HexDigits(n: nat): (s: string)
    ensures |s| >= 1 && IsLowerHex(s)
    ensures s[0] == '0' <==> n == 0
    decreases n
  {
    if n < 16 then [LowerDigit(n)] else HexDigits(n / 16) + [LowerDigit(n % 16)]
  }

  /**
   The number a string of hex digits denotes, reading `""` as 0. On a
   non-empty string this is Python's `int(s, 16)`, which rejects `""`.
   */
  function HexValue(s: string): nat
    requires forall i :: 0 <= i < |s| ==> IsHexDigit(s[i])
    decreases |s|
  {
    if |s| == 0 then 0 else HexValue(s[..|s| - 1]) * 16 + DigitValue(s[|s| - 1])
  }

  lemma {:induction false} HexValueHexDigits(n: nat)
    ensures HexValue(HexDigits(n)) == n
    decreases n
  {
    var s := HexDigits(n);
    if n >= 16 {
      assert s[..|s| - 1] == HexDigits(n / 16);
      HexValueHexDigits(n / 16);
    }
  }

  /** `s` is the canonical `f"{n:x}"` text of `n`: lower-case digits, no leading zero. */
  predicate IsHexOf(s: string, n: nat) {
    |s| >= 1 && IsLowerHex(s) && HexValue(s) == n && (|s| > 1 ==> s[0] != '0')
  }

  lemma HexDigitsIsHexOf(n: nat)
    ensures IsHexOf(HexDigits(n), n)
  {
    HexValueHexDigits(n);
  }

  /** Two numbers with the same `f"{n:x}"` text are equal. */
  lemma HexDigitsInjective(m: nat, n: nat)
    requires HexDigits(m) == HexDigits(n)
    ensures m == n
  {
    HexValueHexDigits(m);
    HexValueHexDigits(n);
  }

  /** Python's `hex(n)` for a non-negative `n`: `"0x"` and then `f"{n:x}"`. */
  function PyHex(n: nat): (s: string)
    ensures |s| >= 3 && s[..2] == "0x"
    ensures IsLowerHex(s[2..]) && HexValue(s[2..]) == n
    ensures IsHexOf(s[2..], n)
  {
    HexDigitsIsHexOf(n);
    assert ("0x" + HexDigits(n))[2..] == HexDigits(n);
    "0x" + HexDigits(n)
  }
}

=== FILE: network.dfy ===
/**
 Choice of the local source address for reaching a target
 (async_get_source_ip in homeassistant/components/network/__init__.py).
 The operating system's own choice is an input: the socket lookup is not
 part of this model.
 */
module NetworkSourceIp {
  import opened Wrappers

  /** One configured IPv4 address of an adapter. */
  datatype Ipv4Config = Ipv4Config(address: string, networkPrefix: nat)

  /** A network adapter as the integration lists it. */
  datatype Adapter = Adapter(name: string, enabled: bool, ipv4: seq<Ipv4Config>)

  /** `[ipv4["address"] for ipv4 in ipv4s]`. */
  function AddressesOf(ipv4s: seq<Ipv4Config>): (r: seq<string>)
    ensures |r| == |ipv4s|
    ensures forall k :: 0 <= k < |r| ==> r[k] == ipv4s[k].address
  {
    seq(|ipv4s|, k requires 0 <= k < |ipv4s| => ipv4s[k].address)
  }

  /** What one adapter adds to the candidates: its addresses when it is enabled and has any. */
  function Contribution(adapter: Adapter): (r: seq<string>)
    ensures r == [] <==> !adapter.enabled || adapter.ipv4 == []
    ensures adapter.enabled ==> r == AddressesOf(adapter.ipv4)
  {
    if adapter.enabled && |adapter.ipv4| > 0 then AddressesOf(adapter.ipv4) else []
  }

  /** All candidate source addresses, adapter by adapter, in order. */
  function Candidates(adapters: seq<Adapter>): (r: seq<string>)
    ensures r == [] <==> forall i :: 0 <= i < |adapters| ==> !adapters[i].enabled || adapters[i].ipv4 == []
    decreases |adapters|
  {
    if |adapters| == 0 then []
    else
      var init := adapters[..|adapters| - 1];
      assert forall i :: 0 <= i < |init| ==> init[i] == adapters[i];
      Candidates(init) + Contribution(adapters[|adapters| - 1])
  }

  /** Candidates keep adapter order: those of earlier adapters come first. */
  lemma {:induction false} CandidatesConcat(a: seq<Adapter>, b: seq<Adapter>)
    ensures Candidates(a + b) == Candidates(a) + Candidates(b)
    decreases |b|
  {
    if |b| > 0 {
      var init := b[..|b| - 1];
      assert (a + b)[..|a + b| - 1] == a + init;
      assert (a + b)[|a + b| - 1] == b[|b| - 1];
      assert Candidates(a + b) == Candidates(a + init) + Contribution(b[|b| - 1]);
      assert Candidates(b) == Candidates(init) + Contribution(b[|b| - 1]);
      CandidatesConcat(a, init);
    } else {
      assert a + b == a;
    }
  }

  /** An address is a candidate exactly when an enabled adapter has it configured. */
  lemma {:induction false} CandidateMembership(adapters: seq<Adapter>, x: string)
    ensures x in Candidates(adapters) <==>
      exists i, k :: 0 <= i < |adapters| && adapters[i].enabled && 0 <= k < |adapters[i].ipv4|
                     && adapters[i].ipv4[k].address == x
    decreases |adapters|
  {
    if |adapters| > 0 {
      var init := adapters[..|adapters| - 1];
      var last := adapters[|adapters| - 1];
      CandidateMembership(init, x);
      if x in Contribution(last) {
        var k :| 0 <= k < |Contribution(last)| && Contribution(last)[k] == x;
        assert last.ipv4[k].address == x;
      }
      if exists i, k :: 0 <= i < |adapters| && adapters[i].enabled && 0 <= k < |adapters[i].ipv4|
                        && adapters[i].ipv4[k].address == x {
        var i, k :| 0 <= i < |adapters| && adapters[i].enabled && 0 <= k < |adapters[i].ipv4|
                    && adapters[i].ipv4[k].address == x;
        if i < |adapters| - 1 {
          assert init[i] == adapters[i];
        } else {
          assert Contribution(last)[k] == x;
        }
      }
      assert forall i :: 0 <= i < |init| ==> init[i] == adapters[i];
    }
  }

  /**
   async_get_source_ip: the operating system's choice when it is a
   candidate, the first candidate otherwise; IndexError when there is no
   candidate at all.
   */
  method GetSourceIp(adapters: seq<Adapter>, detected: Option<string>) returns (r: Result<string, Fault>)
    ensures r.Err? <==> Candidates(adapters) == []
    ensures r.Err? ==> r.error == IndexError
    ensures r.Ok? ==> r.value in Candidates(adapters)
    ensures detected.Some? && detected.value in Candidates(adapters) ==> r == Ok(detected.value)
    ensures (detected.None? || detected.value !in Candidates(adapters)) && Candidates(adapters) != [] ==>
      r == Ok(Candidates(adapters)[0])
  {
    var all: seq<string> := [];
    for n := 0 to |adapters|
      invariant all == Candidates(adapters[..n])
    {
      var adapter := adapters[n];
      if adapter.enabled && |adapter.ipv4| > 0 {
        all := all + AddressesOf(adapter.ipv4);
      }
      assert adapters[..n + 1][..n] == adapters[..n];
    }
    assert adapters[..|adapters|] == adapters;
    if detected.Some? && detected.value in all {
      r := Ok(detected.value);
    } else if |all| == 0 {
      r := Err(IndexError);
    } else {
      r := Ok(all[0]);
    }
  }
}

=== FILE: ordered_map.dfy ===
/**
 Python dictionaries keep insertion order, and the modelled code iterates over
 them in that order. An ordered map is a sequence of key/value pairs with
 distinct keys.
 */
module OrderedMaps {
  import opened Wrappers

  type OrderedMap<K, V> = seq<(K, V)>

  predicate DistinctKeys<K(==), V>(m: OrderedMap<K, V>) {
    forall i, j :: 0 <= i < j < |m| ==> m[i].0 != m[j].0
  }

  /** The keys of the map, as a set (`key in d`). */
  function Keys<K(==), V>(m: OrderedMap<K, V>): set<K> {
    set i | 0 <= i < |m| :: m[i].0
  }

  lemma KeysCons<K, V>(x: (K, V), rest: OrderedMap<K, V>)
    ensures Keys([x] + rest) == {x.0} + Keys(rest)
  {
    var m := [x] + rest;
    assert m[0].0 == x.0;
    forall k | k in Keys(m) && k != x.0 ensures k in Keys(rest) {
      var i :| 0 <= i < |m| && m[i].0 == k;
      assert rest[i - 1].0 == k;
    }
    forall k | k in Keys(rest) ensures k in Keys(m) {
      var i :| 0 <= i < |rest| && rest[i].0 == k;
      assert m[i + 1].0 == k;
    }
  }

  /** `d.get(key)`: the value of the first pair with that key. */
  function Get<K(==), V>(m: OrderedMap<K, V>, key: K): (r: Option<V>)
    ensures r.None? <==> key !in Keys(m)
    ensures r.Some? ==> exists i :: 0 <= i < |m| && m[i] == (key, r.value)
    decreases |m|
  {
    if |m| == 0 then None
    else if m[0].0 == key then Some(m[0].1)
    else
      var r := Get(m[1..], key);
      KeysCons(m[0], m[1..]);
      assert [m[0]] + m[1..] == m;
      assert r.Some? ==> exists i :: 0 <= i < |m| && m[i] == (key, r.value) by {
        if r.Some? {
          var i :| 0 <= i < |m[1..]| && m[1..][i] == (key, r.value);
          assert m[i + 1] == (key, r.value);
        }
      }
      r
  }

  /**
   `d[key] = value`: an existing key keeps its position and gets the new value,
   a new key is appended at the end.
   */
  function Put<K(==), V>(m: OrderedMap<K, V>, key: K, value: V): (r: OrderedMap<K, V>)
    ensures |r| == if key in Keys(m) then |m| else |m| + 1
    ensures Keys(r) == Keys(m) + {key}
    decreases |m|
  {
    if |m| == 0 then
      KeysCons((key, value), m);
      assert [(key, value)] + m == [(key, value)];
      [(key, value)]
    else if m[0].0 == key then
      KeysCons(m[0], m[1..]);
      KeysCons((key, value), m[1..]);
      assert [m[0]] + m[1..] == m;
      [(key, value)] + m[1..]
    else
      var rest := Put(m[1..], key, value);
      KeysCons(m[0], m[1..]);
      KeysCons(m[0], rest);
      assert [m[0]] + m[1..] == m;
      [m[0]] + rest
  }

  /** After `d[key] = value`, looking `key` up gives `value` and every other key is untouched. */
  lemma {:induction false} GetPut<K, V>(m: OrderedMap<K, V>, key: K, value: V, other: K)
    ensures Get(Put(m, key, value), key) == Some(value)
    ensures other != key ==> Get(Put(m, key, value), other) == Get(m, other)
    decreases |m|
  {
    if |m| > 0 && m[0].0 != key {
      GetPut(m[1..], key, value, other);
      var r := Put(m, key, value);
      assert r[1..] == Put(m[1..], key, value);
    }
  }

  /** `d[key] = value` keeps the keys distinct. */
  lemma {:induction false} PutDistinct<K, V>(m: OrderedMap<K, V>, key: K, value: V)
    requires DistinctKeys(m)
    ensures DistinctKeys(Put(m, key, value))
    decreases |m|
  {
    if |m| > 0 && m[0].0 != key {
      assert DistinctKeys(m[1..]);
      PutDistinct(m[1..], key, value);
      var rest := Put(m[1..], key, value);
      assert m[0].0 !in Keys(m[1..]) by {
        forall i | 0 <= i < |m[1..]| ensures m[1..][i].0 != m[0].0 {
          assert m[1..][i] == m[i + 1];
        }
      }
      assert m[0].0 !in Keys(rest);
      var r := [m[0]] + rest;
      forall i, j | 0 <= i < j < |r| ensures r[i].0 != r[j].0 {
        if i == 0 {
          assert r[j] == rest[j - 1];
          assert rest[j - 1].0 in Keys(rest);
        } else {
          assert r[i] == rest[i - 1] && r[j] == rest[j - 1];
        }
      }
    } else if |m| > 0 {
      var r := [(key, value)] + m[1..];
      forall i, j | 0 <= i < j < |r| ensures r[i].0 != r[j].0 {
        assert r[j] == m[j];
        if i > 0 { assert r[i] == m[i]; } else { assert m[0].0 != m[j].0; }
      }
    }
  }

  /** Appending a new key is what `d[key] = value` does to a dictionary without that key. */
  lemma {:induction false} PutNewAppends<K, V>(m: OrderedMap<K, V>, key: K, value: V)
    requires key !in Keys(m)
    ensures Put(m, key, value) == m + [(key, value)]
    decreases |m|
  {
    if |m| > 0 {
      assert m[0].0 in Keys(m);
      assert Keys(m[1..]) <= Keys(m) by {
        forall k | k in Keys(m[1..]) ensures k in Keys(m) {
          var j :| 0 <= j < |m[1..]| && m[1..][j].0 == k;
          assert m[j + 1].0 == k;
        }
      }
      PutNewAppends(m[1..], key, value);
      assert [m[0]] + (m[1..] + [(key, value)]) == m + [(key, value)];
    }
  }
}

=== FILE: rfxtrx_entity.dfy ===
/**
 The identity, grouping and attribute rules shared by every RFXtrx entity
 (RfxtrxEntity in homeassistant/components/rfxtrx/__init__.py).
 */
module RfxtrxEntity {
  import opened Wrappers
  import opened Hex
  import opened Strings
  import opened RfxtrxIds

  /** An entity as its constructor leaves it: name, identity, unique id, group id and last event. */
  datatype Entity = Entity(
    name: string,
    device: RfxDevice,
    deviceId: DeviceId,
    uniqueId: string,
    groupId: string,
    event: Option<RfxEvent>)

  /** `"_".join(device_id)`: the entity's unique id. */
  function UniqueId(id: DeviceId): (u: string)
    ensures u == id.packetType + "_" + id.subType + "_" + id.id
  {
    JoinOfThree(id.packetType, id.subType, id.id, '_');
    Join([id.packetType, id.subType, id.id], '_')
  }

  /**
   `id_string.partition(":")[0]`: the part of the id before the first `":"`,
   the whole id when it has none. A remote's devices `213c7f2:1`,
   `213c7f2:2`, ... share the group `213c7f2`.
   */
  function GroupId(idString: string): (g: string)
    ensures ':' !in g
    ensures IsPrefix(g, idString)
    ensures |g| < |idString| ==> idString[|g|] == ':'
    ensures ':' !in idString ==> g == idString
    ensures IsGroupHead(g, idString)
  {
    var (head, sep, tail) := Partition(idString, ':');
    assert idString == head + sep + tail;
    assert idString[..|head|] == head;
    assert sep != [] ==> idString[|head|] == ':';
    head
  }

  /**
   `g` is what `s.partition(":")[0]` gives: a prefix of `s` without `":"`
   that is the whole of `s` or is followed by a `":"`.
   */
  predicate IsGroupHead(g: string, s: string) {
    ':' !in g && IsPrefix(g, s) && (|g| == |s| || s[|g|] == ':')
  }

  /** The group head of an id is unique: it is the group id. */
  lemma GroupHeadIsGroupId(g: string, s: string)
    ensures IsGroupHead(g, s) <==> g == GroupId(s)
  {
    if IsGroupHead(g, s) {
      if |g| == |s| {
        assert g == s;
      } else {
        assert s == g + [':'] + s[|g| + 1..];
        PartitionUnique(g, s[|g| + 1..], ':');
      }
    }
  }

  /** RfxtrxEntity.__init__: a new entity for a device and its identity. */
  function NewEntity(device: RfxDevice, deviceId: DeviceId, event: Option<RfxEvent>): (e: Entity)
    ensures e.device == device && e.deviceId == deviceId && e.event == event
    ensures e.name == device.typeString + " " + device.idString
    ensures e.uniqueId == deviceId.packetType + "_" + deviceId.subType + "_" + deviceId.id
    ensures IsGroupHead(e.groupId, device.idString)
    ensures ':' !in e.groupId && IsPrefix(e.groupId, device.idString)
  {
    Entity(device.typeString + " " + device.idString, device, deviceId, UniqueId(deviceId), GroupId(device.idString), event)
  }

  /** Identities computed by get_device_id never share a unique id unless they are equal. */
  lemma UniqueIdDistinguishesDevices(d1: RfxDevice, bits1: Option<nat>, d2: RfxDevice, bits2: Option<nat>)
    requires GetDeviceId(d1, bits1).Ok? && GetDeviceId(d2, bits2).Ok?
    requires UniqueId(GetDeviceId(d1, bits1).value) == UniqueId(GetDeviceId(d2, bits2).value)
    ensures GetDeviceId(d1, bits1) == GetDeviceId(d2, bits2)
  {
    var a := GetDeviceId(d1, bits1).value;
    var b := GetDeviceId(d2, bits2).value;
    NoUnderscoreInHex(a.packetType);
    NoUnderscoreInHex(a.subType);
    NoUnderscoreInHex(b.packetType);
    NoUnderscoreInHex(b.subType);
    Join3Injective(a.packetType, a.subType, a.id, b.packetType, b.subType, b.id, '_');
  }

  lemma NoUnderscoreInHex(s: string)
    requires IsLowerHex(s)
    ensures '_' !in s
  {
  }

  /** `"Command" in event.values and event.values["Command"] in COMMAND_GROUP_LIST`. */
  predicate IsGroupCommand(event: RfxEvent, groupCommands: set<string>)
    ensures "Command" !in event.values ==> !IsGroupCommand(event, groupCommands)
    ensures IsGroupCommand(event, groupCommands) ==> groupCommands != {}
  {
    "Command" in event.values && event.values["Command"] in groupCommands
  }

  /**
   _event_applies: a group command reaches every entity of the sender's
   group; any other event only the entity with exactly that identity.
   */
  function EventApplies(entity: Entity, event: RfxEvent, deviceId: DeviceId, groupCommands: set<string>): (b: bool)
    ensures IsGroupCommand(event, groupCommands) ==> (b <==> IsGroupHead(entity.groupId, event.device.idString))
    ensures !IsGroupCommand(event, groupCommands) ==> (b <==> deviceId == entity.deviceId)
  {
    GroupHeadIsGroupId(entity.groupId, event.device.idString);
    if IsGroupCommand(event, groupCommands) then GroupId(event.device.idString) == entity.groupId
    else deviceId == entity.deviceId
  }

  /** A group command sent as `g:k` reaches the entity of `g:k'`, whatever the two indices. */
  lemma GroupCommandReachesGroup(
    entityDevice: RfxDevice, deviceId: DeviceId, event: RfxEvent, eventDeviceId: DeviceId,
    groupCommands: set<string>, group: string, k: string, k': string)
    requires ':' !in group
    requires entityDevice.idString == group + ":" + k
    requires event.device.idString == group + ":" + k'
    requires IsGroupCommand(event, groupCommands)
    ensures EventApplies(NewEntity(entityDevice, deviceId, None), event, eventDeviceId, groupCommands)
  {
    PartitionUnique(group, k, ':');
    PartitionUnique(group, k', ':');
  }

  /** A group command from another group never applies; the identity is not consulted. */
  lemma GroupCommandStaysInGroup(entity: Entity, event: RfxEvent, deviceId: DeviceId, groupCommands: set<string>)
    requires IsGroupCommand(event, groupCommands)
    requires GroupId(event.device.idString) != entity.groupId
    ensures !EventApplies(entity, event, deviceId, groupCommands)
  {
  }

  /** Any other event applies exactly when its identity is the entity's. */
  lemma PlainEventNeedsSameIdentity(entity: Entity, event: RfxEvent, deviceId: DeviceId, groupCommands: set<string>)
    requires !IsGroupCommand(event, groupCommands)
    ensures EventApplies(entity, event, deviceId, groupCommands) <==> deviceId == entity.deviceId
  {
  }

  /**
   extra_state_attributes: the last event's bytes as two lower-case hex
   digits each (the value of the `event` attribute), `None` before any event.
   */
  function EventAttribute(entity: Entity): (r: Option<string>)
    ensures r.None? <==> entity.event.None?
    ensures r.Some? ==> IsPlainHex(r.value) && |r.value| == 2 * |entity.event.value.data|
    ensures r.Some? ==> FromHex(r.value) == Some(entity.event.value.data)
  {
    match entity.event
    case None => None
    case Some(e) =>
      FromHexHexlify(e.data);
      Some(Hexlify(e.data))
  }

  /** _apply_event: the entity remembers the event; nothing else about it changes. */
  function ApplyEvent(entity: Entity, event: RfxEvent): (e: Entity)
    ensures e.event == Some(event)
    ensures e.name == entity.name && e.device == entity.device && e.deviceId == entity.deviceId
    ensures e.uniqueId == entity.uniqueId && e.groupId == entity.groupId
  {
    entity.(event := Some(event))
  }

  /** After an event is applied, the `event` attribute is the hex of exactly that event's bytes. */
  lemma AttributeAfterApply(entity: Entity, event: RfxEvent)
    ensures EventAttribute(ApplyEvent(entity, event)).Some?
    ensures FromHex(EventAttribute(ApplyEvent(entity, event)).value) == Some(event.data)
    ensures |EventAttribute(ApplyEvent(entity, event)).value| == 2 * |event.data|
  {
  }
}

=== FILE: rfxtrx_ids.dfy ===
/**
 How RFXtrx radio packets become stable device identities
 (homeassistant/components/rfxtrx/__init__.py): the PT2262 / Lighting4 split
 of the last id byte into address bits and command bits, the
 `(packettype, subtype, id_string)` identity, the inference of the configured
 data-bit width, and the search for a configured device with a similar id.
 */
module RfxtrxIds {
  import opened Wrappers
  import opened Hex

  /** DEVICE_PACKET_TYPE_LIGHTING4, the RFXtrx packet type of PT2262 remotes. */
  const Lighting4: nat := 0x13

  /** The parsed device of an RFXtrx packet, as far as identities need it. */
  datatype RfxDevice = RfxDevice(packetType: nat, subType: nat, typeString: string, idString: string)

  /** A received packet: its parsed device, its raw bytes and its decoded values (`event.values`). */
  datatype RfxEvent = RfxEvent(device: RfxDevice, data: seq<Byte>, values: map<string, string>)

  /** The identity triple `(f"{packettype:x}", f"{subtype:x}", id_string)`. */
  datatype DeviceId = DeviceId(packetType: string, subType: string, id: string)

  /** One configured device (a validated DEVICE_DATA_SCHEMA dictionary). */
  datatype DeviceConfig = DeviceConfig(
    fireEvent: bool,
    dataBits: Option<nat>,
    signalRepetitions: nat,
    commandOn: Option<Byte>,
    commandOff: Option<Byte>,
    deviceId: Option<DeviceId>)

  /** `DEVICE_DATA_SCHEMA({})`: the schema defaults alone. */
  const DefaultDeviceConfig := DeviceConfig(false, None, 1, None, None, None)

  // ---------------------------------------------------------------------------
  // _bytearray_string

  const InvalidHexMessage := "Data must be a hex string with multiple of two characters"

  /** _bytearray_string: the send service's `event` field decoded to bytes, or the validation error. */
  function BytearrayString(data: string): (r: Result<seq<Byte>, string>)
    ensures r.Ok? <==> FromHex(data).Some?
    ensures r.Ok? ==> FromHex(data) == Some(r.value)
    ensures r.Err? ==> r.error == InvalidHexMessage
  {
    match FromHex(data)
    case Some(bytes) => Ok(bytes)
    case None => Err(InvalidHexMessage)
  }

  /** Packet bytes written as hex are accepted back unchanged, and canonical hex text is reproduced. */
  lemma BytearrayStringRoundTrip(bytes: seq<Byte>, text: string)
    requires IsPlainHex(text)
    ensures BytearrayString(Hexlify(bytes)) == Ok(bytes)
    ensures BytearrayString(text).Ok? && Hexlify(BytearrayString(text).value) == text
  {
    FromHexHexlify(bytes);
    HexlifyFromHex(text);
  }

  /** Whitespace between byte pairs is tolerated; a pair cut short is not. */
  lemma BytearrayStringExamples()
    ensures BytearrayString("0b 11") == Ok([0x0b, 0x11])
    ensures BytearrayString("0B11") == Ok([0x0b, 0x11])
    ensures BytearrayString("0b1").Err?
    ensures BytearrayString("0 b11").Err?
  {
    assert "11"[2..] == [] && FromHex([]) == Some([]);
    assert [17] + [] == [17];
    assert FromHex("11") == Some([0x11]);
    assert "0b 11"[2..] == " 11" && " 11"[1..] == "11";
    assert [11] + [17] == [0x0b, 0x11];
  }

  // ---------------------------------------------------------------------------
  // Bits of the last id byte

  /** Bit `i` of `x` is set. */
  predicate Bit(x: bv8, i: nat)
    requires i < 8
  {
    (x >> i) & 1 == 1
  }

  /** `0xFF & ((1 << bits) - 1)`: the low `bits` bits, which carry the PT2262 command. */
  function CommandMask(bits: nat): (m: bv8)
    ensures forall i: nat :: i < 8 ==> (Bit(m, i) <==> i < bits)
  {
    if bits >= 8 then 0xFF else ((1 as bv8) << bits) - 1
  }

  /** `0xFF & ~((1 << bits) - 1)`: the bits above the command, which carry the address. */
  function AddressMask(bits: nat): (m: bv8)
    ensures m == !CommandMask(bits)
  {
    if bits >= 8 then 0 else !(((1 as bv8) << bits) - 1)
  }

  /** `b & mask` with the address mask: the last byte with its low `bits` bits cleared. */
  function ClearLowBits(b: bv8, bits: nat): (r: bv8)
    ensures forall i: nat :: i < 8 ==> (Bit(r, i) <==> i >= bits && Bit(b, i))
    ensures bits >= 8 ==> r == 0
    ensures bits == 0 ==> r == b
  {
    b & AddressMask(bits)
  }

  /** `b & mask` with the command mask: only the low `bits` bits of the last byte. */
  function LowBits(b: bv8, bits: nat): (r: bv8)
    ensures forall i: nat :: i < 8 ==> (Bit(r, i) <==> i < bits && Bit(b, i))
    ensures bits >= 8 ==> r == b
    ensures bits == 0 ==> r == 0
  {
    b & CommandMask(bits)
  }

  /** Address and command are disjoint bit sets that together make up the byte. */
  lemma AddressCommandSplit(b: bv8, bits: nat)
    ensures ClearLowBits(b, bits) & LowBits(b, bits) == 0
    ensures ClearLowBits(b, bits) | LowBits(b, bits) == b
  {
  }

  /** Clearing the same low bits twice changes nothing more. */
  lemma ClearLowBitsIdempotent(b: bv8, bits: nat)
    ensures ClearLowBits(ClearLowBits(b, bits), bits) == ClearLowBits(b, bits)
  {
  }

  /** The bytes with the address mask applied to the last one (`data[len(data) - 1] &= mask`). */
  function MaskLast(data: seq<Byte>, bits: nat): (r: seq<Byte>)
    requires |data| > 0
    ensures |r| == |data|
    ensures r[..|data| - 1] == data[..|data| - 1]
    ensures r[|data| - 1] as bv8 == ClearLowBits(data[|data| - 1] as bv8, bits)
  {
    data[..|data| - 1] + [ClearLowBits(data[|data| - 1] as bv8, bits) as int]
  }

  // ---------------------------------------------------------------------------
  // get_pt2262_deviceid / get_pt2262_cmd

  /**
   get_pt2262_deviceid: the hex id with the low `nbDataBits` bits of its last
   byte cleared. `Ok(None)` when no width is given or the id is not hex;
   IndexError when the id decodes to no bytes at all.
   */
  function Pt2262DeviceId(deviceId: string, nbDataBits: Option<nat>): (r: Result<Option<string>, Fault>)
    ensures r == Ok(None) <==> nbDataBits.None? || FromHex(deviceId).None?
    ensures r.Err? <==> nbDataBits.Some? && FromHex(deviceId) == Some([])
    ensures r.Ok? && r.value.Some? ==>
      && nbDataBits.Some?
      && FromHex(deviceId).Some?
      && var data := FromHex(deviceId).value;
      && var masked := FromHex(r.value.value);
      && IsPlainHex(r.value.value)
      && masked.Some? && |masked.value| == |data| > 0
      && masked.value[..|data| - 1] == data[..|data| - 1]
      && masked.value[|data| - 1] as bv8 == ClearLowBits(data[|data| - 1] as bv8, nbDataBits.value)
  {
    if nbDataBits.None? then Ok(None)
    else match FromHex(deviceId)
      case None => Ok(None)
      case Some(data) =>
        if |data| == 0 then Err(IndexError)
        else
          FromHexHexlify(MaskLast(data, nbDataBits.value));
          Ok(Some(Hexlify(MaskLast(data, nbDataBits.value))))
  }

  /**
   get_pt2262_cmd: `hex()` of the low `dataBits` bits of the last byte.
   `Ok(None)` when the id is not hex; IndexError when it decodes to no bytes.
   */
  function Pt2262Cmd(deviceId: string, dataBits: nat): (r: Result<Option<string>, Fault>)
    ensures r == Ok(None) <==> FromHex(deviceId).None?
    ensures r.Err? <==> FromHex(deviceId) == Some([])
    ensures r.Ok? && r.value.Some? ==>
      && FromHex(deviceId).Some?
      && var data := FromHex(deviceId).value;
      && |data| > 0
      && var cmd := r.value.value;
      && |cmd| >= 3 && cmd[..2] == "0x" && IsLowerHex(cmd[2..])
      && HexValue(cmd[2..]) == LowBits(data[|data| - 1] as bv8, dataBits) as int
      && IsHexOf(cmd[2..], LowBits(data[|data| - 1] as bv8, dataBits) as int)
  {
    match FromHex(deviceId)
    case None => Ok(None)
    case Some(data) =>
      if |data| == 0 then Err(IndexError)
      else Ok(Some(PyHex(LowBits(data[|data| - 1] as bv8, dataBits) as int)))
  }

  /**
   For a hex id, the last byte of the address (get_pt2262_deviceid) and the
   command value (get_pt2262_cmd) share no bit and together give the original
   last byte.
   */
  lemma AddressAndCommandPartitionLastByte(deviceId: string, bits: nat, data: seq<Byte>, address: string, addressBytes: seq<Byte>, cmd: string)
    requires FromHex(deviceId) == Some(data) && |data| > 0
    requires Pt2262DeviceId(deviceId, Some(bits)) == Ok(Some(address))
    requires FromHex(address) == Some(addressBytes)
    requires Pt2262Cmd(deviceId, bits) == Ok(Some(cmd))
    ensures |addressBytes| == |data|
    ensures addressBytes[..|data| - 1] == data[..|data| - 1]
    ensures |cmd| >= 3 && IsLowerHex(cmd[2..]) && 0 <= HexValue(cmd[2..]) < 256
    ensures
      var a := addressBytes[|data| - 1] as bv8;
      var c := HexValue(cmd[2..]) as bv8;
      a & c == 0 && a | c == data[|data| - 1] as bv8
  {
    var last := data[|data| - 1] as bv8;
    AddressBytes(deviceId, bits, data, address, addressBytes);
    CommandValue(deviceId, bits, data, cmd);
    var low := LowBits(last, bits);
    ByteRoundTrip(low, HexValue(cmd[2..]));
    AddressCommandSplit(last, bits);
  }

  /** An int that is the value of a byte converts back to that byte. */
  lemma ByteRoundTrip(b: bv8, n: int)
    requires n == b as int
    ensures 0 <= n < 256 && n as bv8 == b
  {
  }

  lemma AddressBytes(deviceId: string, bits: nat, data: seq<Byte>, address: string, addressBytes: seq<Byte>)
    requires FromHex(deviceId) == Some(data) && |data| > 0
    requires Pt2262DeviceId(deviceId, Some(bits)) == Ok(Some(address))
    requires FromHex(address) == Some(addressBytes)
    ensures |addressBytes| == |data|
    ensures addressBytes[..|data| - 1] == data[..|data| - 1]
    ensures addressBytes[|data| - 1] as bv8 == ClearLowBits(data[|data| - 1] as bv8, bits)
  {
  }

  lemma CommandValue(deviceId: string, bits: nat, data: seq<Byte>, cmd: string)
    requires FromHex(deviceId) == Some(data) && |data| > 0
    requires Pt2262Cmd(deviceId, bits) == Ok(Some(cmd))
    ensures |cmd| >= 3 && IsLowerHex(cmd[2..])
    ensures HexValue(cmd[2..]) == LowBits(data[|data| - 1] as bv8, bits) as int
  {
    var r := Pt2262Cmd(deviceId, bits);
    assert r.Ok? && r.value.Some? && r.value.value == cmd;
  }

  /** Masking an already masked id with the same width gives the same id back. */
  lemma Pt2262DeviceIdIdempotent(deviceId: string, bits: nat)
    requires Pt2262DeviceId(deviceId, Some(bits)).Ok?
    requires Pt2262DeviceId(deviceId, Some(bits)).value.Some?
    ensures
      var masked := Pt2262DeviceId(deviceId, Some(bits)).value.value;
      Pt2262DeviceId(masked, Some(bits)) == Ok(Some(masked))
  {
    var data := FromHex(deviceId).value;
    var m := MaskLast(data, bits);
    var masked := Hexlify(m);
    FromHexHexlify(m);
    ClearLowBitsIdempotent(data[|data| - 1] as bv8, bits);
    assert m[..|m| - 1] == data[..|data| - 1];
    assert MaskLast(m, bits) == m;
  }

  // ---------------------------------------------------------------------------
  // get_device_id

  /** `data_bits and device.packettype == DEVICE_PACKET_TYPE_LIGHTING4`: the id gets masked. */
  predicate MasksId(device: RfxDevice, dataBits: Option<nat>)
    ensures MasksId(device, dataBits) <==> device.packetType == Lighting4 && dataBits !in {None, Some(0)}
  {
    dataBits.Some? && dataBits.value != 0 && device.packetType == Lighting4
  }

  /**
   get_device_id: the identity triple of a device. For a Lighting4 device
   with a non-zero width, the id is the masked id when masking gives one and
   the raw id_string otherwise.
   */
  function GetDeviceId(device: RfxDevice, dataBits: Option<nat>): (r: Result<DeviceId, Fault>)
    ensures r.Err? <==> MasksId(device, dataBits) && FromHex(device.idString) == Some([])
    ensures r.Ok? ==> IsHexOf(r.value.packetType, device.packetType) && IsHexOf(r.value.subType, device.subType)
    ensures r.Ok? && (!MasksId(device, dataBits) || FromHex(device.idString).None?) ==>
      r.value.id == device.idString
    ensures r.Ok? && MasksId(device, dataBits) && FromHex(device.idString).Some? ==>
      Pt2262DeviceId(device.idString, dataBits) == Ok(Some(r.value.id))
  {
    var id :-
      if MasksId(device, dataBits) then
        var masked :- Pt2262DeviceId(device.idString, dataBits);
        Ok(if masked.Some? && masked.value != "" then masked.value else device.idString)
      else
        Ok(device.idString);
    HexDigitsIsHexOf(device.packetType);
    HexDigitsIsHexOf(device.subType);
    Ok(DeviceId(HexDigits(device.packetType), HexDigits(device.subType), id))
  }

  /** Identifying a device whose id_string is already its computed id gives the same identity. */
  lemma GetDeviceIdStable(device: RfxDevice, dataBits: Option<nat>)
    requires GetDeviceId(device, dataBits).Ok?
    ensures
      var id := GetDeviceId(device, dataBits).value;
      GetDeviceId(device.(idString := id.id), dataBits) == Ok(id)
  {
    var id := GetDeviceId(device, dataBits).value;
    if MasksId(device, dataBits) && FromHex(device.idString).Some? {
      Pt2262DeviceIdIdempotent(device.idString, dataBits.value);
    }
  }

  // ---------------------------------------------------------------------------
  // get_device_data_bits

  /** A configured entry claims the device: its key is the device's id computed with the entry's width. */
  predicate Claims(device: RfxDevice, entry: (DeviceId, DeviceConfig))
    ensures Claims(device, entry) ==>
      IsHexOf(entry.0.packetType, device.packetType) && IsHexOf(entry.0.subType, device.subType)
    ensures Claims(device, entry) && !MasksId(device, entry.1.dataBits) ==> entry.0.id == device.idString
  {
    GetDeviceId(device, entry.1.dataBits) == Ok(entry.0)
  }

  /** No entry before position `i` claims the device, and none of them made get_device_id raise. */
  predicate NoClaimBefore(device: RfxDevice, devices: seq<(DeviceId, DeviceConfig)>, i: nat)
    requires i <= |devices|
  {
    forall j :: 0 <= j < i ==> GetDeviceId(device, devices[j].1.dataBits).Ok? && !Claims(device, devices[j])
  }

  /** The loop of get_device_data_bits: the width of the first entry, in map order, that claims the device. */
  function FirstClaimBits(device: RfxDevice, devices: seq<(DeviceId, DeviceConfig)>): (r: Result<Option<nat>, Fault>)
    ensures r.Err? ==> FromHex(device.idString) == Some([])
    ensures r.Ok? && r.value.Some? ==>
      exists i :: 0 <= i < |devices| && devices[i].1.dataBits == r.value && Claims(device, devices[i])
    decreases |devices|
  {
    if |devices| == 0 then Ok(None)
    else
      var bits := devices[0].1.dataBits;
      var id :- GetDeviceId(device, bits);
      if id == devices[0].0 then Ok(bits) else FirstClaimBits(device, devices[1..])
  }

  /** get_device_data_bits: the configured width for a Lighting4 device, `None` for any other. */
  function GetDeviceDataBits(device: RfxDevice, devices: seq<(DeviceId, DeviceConfig)>): (r: Result<Option<nat>, Fault>)
    ensures device.packetType != Lighting4 ==> r == Ok(None)
    ensures r.Err? ==> device.packetType == Lighting4 && FromHex(device.idString) == Some([])
  {
    if device.packetType == Lighting4 then FirstClaimBits(device, devices)
    else Ok(None)
  }

  /** A successful search either stops at the first claiming entry or finds none. */
  lemma {:induction false} FirstClaimCases(device: RfxDevice, devices: seq<(DeviceId, DeviceConfig)>)
    requires device.packetType == Lighting4
    requires GetDeviceDataBits(device, devices).Ok?
    ensures
      || (exists i :: 0 <= i < |devices| && Claims(device, devices[i]) && NoClaimBefore(device, devices, i)
                      && GetDeviceDataBits(device, devices) == Ok(devices[i].1.dataBits))
      || (NoClaimBefore(device, devices, |devices|) && GetDeviceDataBits(device, devices) == Ok(None))
    decreases |devices|
  {
    if |devices| > 0 {
      var id := GetDeviceId(device, devices[0].1.dataBits).value;
      if id == devices[0].0 {
        assert Claims(device, devices[0]) && NoClaimBefore(device, devices, 0);
      } else {
        FirstClaimCases(device, devices[1..]);
        if exists i :: 0 <= i < |devices[1..]| && Claims(device, devices[1..][i]) && NoClaimBefore(device, devices[1..], i)
                       && GetDeviceDataBits(device, devices[1..]) == Ok(devices[1..][i].1.dataBits) {
          var i :| 0 <= i < |devices[1..]| && Claims(device, devices[1..][i]) && NoClaimBefore(device, devices[1..], i)
                   && GetDeviceDataBits(device, devices[1..]) == Ok(devices[1..][i].1.dataBits);
          assert devices[1..][i] == devices[i + 1];
          assert NoClaimBefore(device, devices, i + 1) by {
            forall j | 0 < j < i + 1 ensures GetDeviceId(device, devices[j].1.dataBits).Ok? && !Claims(device, devices[j]) {
              assert devices[1..][j - 1] == devices[j];
            }
          }
        } else {
          assert NoClaimBefore(device, devices, |devices|) by {
            forall j | 0 < j < |devices| ensures GetDeviceId(device, devices[j].1.dataBits).Ok? && !Claims(device, devices[j]) {
              assert devices[1..][j - 1] == devices[j];
            }
          }
        }
      }
    }
  }

  /** When entry `i` is the first to claim a Lighting4 device, its width is the device's width. */
  lemma {:induction false} DataBitsOfFirstClaim(device: RfxDevice, devices: seq<(DeviceId, DeviceConfig)>, i: nat)
    requires device.packetType == Lighting4
    requires i < |devices| && Claims(device, devices[i]) && NoClaimBefore(device, devices, i)
    ensures GetDeviceDataBits(device, devices) == Ok(devices[i].1.dataBits)
    decreases i
  {
    if i > 0 {
      assert NoClaimBefore(device, devices[1..], i - 1) by {
        forall j | 0 <= j < i - 1 ensures GetDeviceId(device, devices[1..][j].1.dataBits).Ok? && !Claims(device, devices[1..][j]) {
          assert devices[1..][j] == devices[j + 1];
        }
      }
      assert devices[1..][i - 1] == devices[i];
      DataBitsOfFirstClaim(device, devices[1..], i - 1);
      assert GetDeviceId(device, devices[0].1.dataBits).Ok?;
    }
  }

  /** When no entry claims a Lighting4 device (and none raises), its width is `None`. */
  lemma {:induction false} DataBitsWithoutClaim(device: RfxDevice, devices: seq<(DeviceId, DeviceConfig)>)
    requires device.packetType == Lighting4
    requires NoClaimBefore(device, devices, |devices|)
    ensures GetDeviceDataBits(device, devices) == Ok(None)
    decreases |devices|
  {
    if |devices| > 0 {
      assert GetDeviceId(device, devices[0].1.dataBits).Ok?;
      assert NoClaimBefore(device, devices[1..], |devices| - 1) by {
        forall j | 0 <= j < |devices| - 1 ensures GetDeviceId(device, devices[1..][j].1.dataBits).Ok? && !Claims(device, devices[1..][j]) {
          assert devices[1..][j] == devices[j + 1];
        }
      }
      DataBitsWithoutClaim(device, devices[1..]);
    }
  }

  /** A width that is found comes from the first entry that claims the device. */
  lemma {:induction false} DataBitsFound(device: RfxDevice, devices: seq<(DeviceId, DeviceConfig)>, bits: nat)
    requires GetDeviceDataBits(device, devices) == Ok(Some(bits))
    ensures exists i :: (0 <= i < |devices| && devices[i].1.dataBits == Some(bits)
      && Claims(device, devices[i]) && NoClaimBefore(device, devices, i))
    decreases |devices|
  {
    assert device.packetType == Lighting4;
    var id := GetDeviceId(device, devices[0].1.dataBits).value;
    if id == devices[0].0 {
      assert NoClaimBefore(device, devices, 0);
    } else {
      DataBitsFound(device, devices[1..], bits);
      var i :| 0 <= i < |devices[1..]| && devices[1..][i].1.dataBits == Some(bits)
        && Claims(device, devices[1..][i]) && NoClaimBefore(device, devices[1..], i);
      assert devices[1..][i] == devices[i + 1];
      assert NoClaimBefore(device, devices, i + 1) by {
        forall j | 0 < j < i + 1 ensures GetDeviceId(device, devices[j].1.dataBits).Ok? && !Claims(device, devices[j]) {
          assert devices[1..][j - 1] == devices[j];
        }
      }
    }
  }

  // ---------------------------------------------------------------------------
  // find_possible_pt2262_device

  /** A configured id that may belong to the same remote: same length, same first character. */
  predicate PossibleMatch(candidate: string, deviceId: string)
    ensures PossibleMatch(candidate, deviceId) <==>
      |candidate| == |deviceId| && exists size :: 0 < size <= |candidate| && SharedPrefix(candidate, deviceId, size)
  {
    if |candidate| == |deviceId| && |candidate| > 0 && candidate[0] == deviceId[0] then
      assert SharedPrefix(candidate, deviceId, 1);
      true
    else
      false
  }

  /** The first `size` characters of both strings agree. */
  predicate SharedPrefix(a: string, b: string, size: nat)
    requires size <= |a| && size <= |b|
  {
    a[..size] == b[..size]
  }

  /**
   find_possible_pt2262_device: the first id of `deviceIds` that has the
   length of `deviceId` and shares a non-empty common prefix with it.
   */
  method FindPossiblePt2262Device(deviceIds: seq<string>, deviceId: string) returns (r: Option<string>)
    ensures r.None? <==> forall k :: 0 <= k < |deviceIds| ==> !PossibleMatch(deviceIds[k], deviceId)
    ensures r.Some? ==> exists k :: (0 <= k < |deviceIds| && deviceIds[k] == r.value
      && PossibleMatch(r.value, deviceId)
      && forall j :: 0 <= j < k ==> !PossibleMatch(deviceIds[j], deviceId))
  {
    var n := 0;
    while n < |deviceIds|
      invariant n <= |deviceIds|
      invariant forall j :: 0 <= j < n ==> !PossibleMatch(deviceIds[j], deviceId)
    {
      var devId := deviceIds[n];
      if |devId| == |deviceId| {
        // `size` is the index of the last character of the common prefix.
        var size: Option<nat> := None;
        var i := 0;
        while i < |devId| && devId[i] == deviceId[i]
          invariant i <= |devId|
          invariant size.None? <==> i == 0
          invariant forall k :: 0 <= k < i ==> devId[k] == deviceId[k]
        {
          size := Some(i);
          i := i + 1;
        }
        if size.Some? {
          assert PossibleMatch(deviceIds[n], deviceId);
          return Some(devId);
        }
      }
      n := n + 1;
    }
    return None;
  }
}

=== FILE: rfxtrx_receive.dfy ===
/**
 What the RFXtrx integration does with each packet the gateway receives
 (async_handle_receive and _add_device in
 homeassistant/components/rfxtrx/__init__.py): drop it, learn a new device
 from it, or dispatch it to the entities and possibly to the event bus.
 */
module RfxtrxReceive {
  import opened Wrappers
  import opened Hex
  import opened OrderedMaps
  import opened RfxtrxIds

  /**
   The receiver's state: the automatic-add option, the device lookup keyed by
   identity, and the config entry's devices keyed by event code.
   */
  datatype Receiver = Receiver(
    automaticAdd: bool,
    devices: OrderedMap<DeviceId, DeviceConfig>,
    entryDevices: OrderedMap<string, DeviceConfig>)

  /** The payload of an `rfxtrx_event` on the bus (without the device registry id). */
  datatype EventData = EventData(
    packetType: nat,
    subType: nat,
    typeString: string,
    idString: string,
    data: string,
    values: map<string, string>)

  /** What a received packet leads to. */
  datatype Reception =
    | Dropped
    | Dispatched(deviceId: DeviceId, fired: Option<EventData>, receiver: Receiver)

  /** `binascii.hexlify(event.data)`: the event code under which a learnt device is stored. */
  function EventCode(event: RfxEvent): (code: string)
    ensures IsPlainHex(code) && FromHex(code) == Some(event.data)
  {
    FromHexHexlify(event.data);
    Hexlify(event.data)
  }

  /** The `event_data` of a received packet: its device fields, its bytes as hex, and its values. */
  function DescribeEvent(event: RfxEvent): (e: EventData)
    ensures e.packetType == event.device.packetType && e.subType == event.device.subType
    ensures e.typeString == event.device.typeString && e.idString == event.device.idString
    ensures IsPlainHex(e.data) && FromHex(e.data) == Some(event.data)
    ensures e.values == event.values
  {
    EventData(event.device.packetType, event.device.subType, event.device.typeString,
              event.device.idString, EventCode(event), event.values)
  }

  /**
   The configuration _add_device gives a learnt device: what the device
   schema makes of an empty mapping (fire_event off, one signal repetition,
   every optional key absent) plus its identity.
   */
  function LearntConfig(deviceId: DeviceId): (c: DeviceConfig)
    ensures c.deviceId == Some(deviceId)
    ensures !c.fireEvent && c.signalRepetitions == 1
    ensures c.dataBits.None? && c.commandOn.None? && c.commandOff.None?
  {
    DefaultDeviceConfig.(deviceId := Some(deviceId))
  }

  /**
   _add_device: store the schema defaults plus the identity under the event
   code in a copy of the entry's devices, and under the identity in the
   lookup. Every other event code and identity keeps its configuration.
   */
  function AddDevice(receiver: Receiver, event: RfxEvent, deviceId: DeviceId): (r: Receiver)
    ensures r.automaticAdd == receiver.automaticAdd
    ensures Get(r.entryDevices, EventCode(event)) == Some(LearntConfig(deviceId))
    ensures forall code :: code != EventCode(event) ==> Get(r.entryDevices, code) == Get(receiver.entryDevices, code)
    ensures Keys(r.entryDevices) == Keys(receiver.entryDevices) + {EventCode(event)}
    ensures Get(r.devices, deviceId) == Some(LearntConfig(deviceId))
    ensures forall id :: id != deviceId ==> Get(r.devices, id) == Get(receiver.devices, id)
    ensures Keys(r.devices) == Keys(receiver.devices) + {deviceId}
  {
    var config := LearntConfig(deviceId);
    var entryDevices := Put(receiver.entryDevices, EventCode(event), config);
    var devices := Put(receiver.devices, deviceId, config);
    forall code ensures Get(entryDevices, code) == (if code == EventCode(event) then Some(config) else Get(receiver.entryDevices, code)) {
      GetPut(receiver.entryDevices, EventCode(event), config, code);
    }
    forall id ensures Get(devices, id) == (if id == deviceId then Some(config) else Get(receiver.devices, id)) {
      GetPut(receiver.devices, deviceId, config, id);
    }
    Receiver(receiver.automaticAdd, devices, entryDevices)
  }

  /** The fire_event option of a known identity (`devices.get(device_id, {}).get(CONF_FIRE_EVENT)`). */
  function FireEvent(devices: OrderedMap<DeviceId, DeviceConfig>, deviceId: DeviceId): (b: bool)
    ensures deviceId !in Keys(devices) ==> !b
    ensures b ==> exists i :: 0 <= i < |devices| && devices[i].0 == deviceId && devices[i].1.fireEvent
  {
    match Get(devices, deviceId)
    case Some(config) => config.fireEvent
    case None => false
  }

  /**
   async_handle_receive: packets without an id are dropped; packets of an
   unknown identity are dropped unless automatic add is on, in which case
   the device is learnt first; everything else is dispatched, and also put
   on the bus when the device's fire_event option is set.
   */
  function HandleReceive(receiver: Receiver, event: RfxEvent): (r: Result<Reception, Fault>)
    ensures event.device.idString == "" ==> r == Ok(Dropped)
    ensures r.Err? ==> event.device.packetType == Lighting4 && FromHex(event.device.idString) == Some([])
    ensures r.Ok? && r.value.Dispatched? ==>
      && r.value.deviceId in Keys(r.value.receiver.devices)
      && r.value.receiver.automaticAdd == receiver.automaticAdd
      && (r.value.fired.Some? <==> Get(r.value.receiver.devices, r.value.deviceId).value.fireEvent)
      && (r.value.fired.Some? ==> FromHex(r.value.fired.value.data) == Some(event.data))
    ensures r.Ok? && r.value.Dispatched? && r.value.fired.Some? ==> r.value.fired.value == DescribeEvent(event)
    ensures r.Ok? && r.value.Dropped? && event.device.idString != "" ==> !receiver.automaticAdd
  {
    if event.device.idString == "" then Ok(Dropped)
    else
      var dataBits :- GetDeviceDataBits(event.device, receiver.devices);
      match GetDeviceId(event.device, dataBits)
      case Err(fault) => Err(fault)
      case Ok(deviceId) =>
        if deviceId !in Keys(receiver.devices) && !receiver.automaticAdd then Ok(Dropped)
        else
          var next := if deviceId in Keys(receiver.devices) then receiver else AddDevice(receiver, event, deviceId);
          var fired := if FireEvent(next.devices, deviceId) then Some(DescribeEvent(event)) else None;
          Ok(Dispatched(deviceId, fired, next))
  }

  /** A packet of an unknown identity is dropped, and nothing is learnt, when automatic add is off. */
  lemma UnknownDeviceDroppedWithoutAutomaticAdd(receiver: Receiver, event: RfxEvent, dataBits: Option<nat>, deviceId: DeviceId)
    requires !receiver.automaticAdd && event.device.idString != ""
    requires GetDeviceDataBits(event.device, receiver.devices) == Ok(dataBits)
    requires GetDeviceId(event.device, dataBits) == Ok(deviceId)
    requires deviceId !in Keys(receiver.devices)
    ensures HandleReceive(receiver, event) == Ok(Dropped)
  {
  }

  /**
   With automatic add on, a packet of an unknown identity teaches the
   receiver the device under its event code, and is dispatched without a bus
   event (a learnt device's fire_event is off).
   */
  lemma AutomaticAddLearnsDevice(receiver: Receiver, event: RfxEvent, dataBits: Option<nat>, deviceId: DeviceId)
    requires receiver.automaticAdd && event.device.idString != ""
    requires GetDeviceDataBits(event.device, receiver.devices) == Ok(dataBits)
    requires GetDeviceId(event.device, dataBits) == Ok(deviceId)
    requires deviceId !in Keys(receiver.devices)
    ensures HandleReceive(receiver, event) == Ok(Dispatched(deviceId, None, AddDevice(receiver, event, deviceId)))
    ensures Get(AddDevice(receiver, event, deviceId).entryDevices, EventCode(event)) == Some(LearntConfig(deviceId))
  {
  }

  /** A packet of a known identity leaves the receiver's state as it was. */
  lemma KnownDeviceKeepsState(receiver: Receiver, event: RfxEvent, dataBits: Option<nat>, deviceId: DeviceId)
    requires event.device.idString != ""
    requires GetDeviceDataBits(event.device, receiver.devices) == Ok(dataBits)
    requires GetDeviceId(event.device, dataBits) == Ok(deviceId)
    requires deviceId in Keys(receiver.devices)
    ensures HandleReceive(receiver, event).Ok?
    ensures HandleReceive(receiver, event).value.Dispatched?
    ensures HandleReceive(receiver, event).value.deviceId == deviceId
    ensures HandleReceive(receiver, event).value.receiver == receiver
  {
  }

  /**
   A configured Lighting4 device is recognised under the key of the first
   entry that claims it, so its packets are dispatched and never learnt again.
   */
  lemma ConfiguredDeviceIsRecognised(receiver: Receiver, event: RfxEvent, i: nat)
    requires event.device.packetType == Lighting4 && event.device.idString != ""
    requires DistinctKeys(receiver.devices)
    requires i < |receiver.devices|
    requires Claims(event.device, receiver.devices[i]) && NoClaimBefore(event.device, receiver.devices, i)
    ensures HandleReceive(receiver, event).Ok?
    ensures HandleReceive(receiver, event).value.Dispatched?
    ensures HandleReceive(receiver, event).value.deviceId == receiver.devices[i].0
    ensures HandleReceive(receiver, event).value.receiver == receiver
    ensures HandleReceive(receiver, event).value.fired.Some? <==> receiver.devices[i].1.fireEvent
  {
    DataBitsOfFirstClaim(event.device, receiver.devices, i);
    var key := receiver.devices[i].0;
    assert key in Keys(receiver.devices);
    var found := Get(receiver.devices, key);
    var k :| 0 <= k < |receiver.devices| && receiver.devices[k] == (key, found.value);
    assert k == i;
  }

  /**
   Receiving the same packet twice changes nothing the second time: a device
   learnt by automatic add is known when its packet comes again, so the
   second reception is the first one over again, under the same identity,
   with the same bus event and no further learning.
   */
  lemma LearntDeviceIsKnownNextTime(receiver: Receiver, event: RfxEvent, first: Reception)
    requires HandleReceive(receiver, event) == Ok(first)
    requires first.Dispatched?
    ensures HandleReceive(first.receiver, event) == Ok(first)
  {
    var device := event.device;
    var dataBits := GetDeviceDataBits(device, receiver.devices).value;
    var deviceId := GetDeviceId(device, dataBits).value;
    var next := first.receiver;
    if deviceId !in Keys(receiver.devices) {
      assert next == AddDevice(receiver, event, deviceId);
      PutNewAppends(receiver.devices, deviceId, LearntConfig(deviceId));
      assert next.devices == receiver.devices + [(deviceId, LearntConfig(deviceId))];
      if device.packetType == Lighting4 {
        FirstClaimCases(device, receiver.devices);
        var n := |receiver.devices|;
        assert dataBits.None?;
        assert Claims(device, next.devices[n]);
        assert NoClaimBefore(device, next.devices, n) by {
          forall j | 0 <= j < n ensures GetDeviceId(device, next.devices[j].1.dataBits).Ok? && !Claims(device, next.devices[j]) {
            assert next.devices[j] == receiver.devices[j];
          }
        }
        DataBitsOfFirstClaim(device, next.devices, n);
      }
    } else {
      assert next == receiver;
    }
    assert GetDeviceDataBits(device, next.devices) == Ok(dataBits);
    assert deviceId in Keys(next.devices);
    var fired := if FireEvent(next.devices, deviceId) then Some(DescribeEvent(event)) else None;
    assert first == Dispatched(deviceId, fired, next);
    assert HandleReceive(next, event) == Ok(Dispatched(deviceId, fired, next));
  }
}

=== FILE: strings.dfy ===
/**
 The few Python string operations the modelled code relies on:
 `str.partition`, the `in` substring test and negative-index slicing.
 */
module Strings {

  /** `prefix` is an initial segment of `s`. */
  predicate IsPrefix(prefix: string, s: string) {
    |prefix| <= |s| && s[..|prefix|] == prefix
  }

  /** `sub` occurs in `s` at position `i`. */
  predicate OccursAt(sub: string, s: string, i: nat) {
    i + |sub| <= |s| && s[i..i + |sub|] == sub
  }

  /** Python's `sub in s`, searched left to right. */
  function Contains(s: string, sub: string): (b: bool)
    ensures b <==> exists i: nat :: OccursAt(sub, s, i)
    decreases |s|
  {
    if IsPrefix(sub, s) then
      assert OccursAt(sub, s, 0);
      true
    else if |s| == 0 then
      false
    else
      var rest := Contains(s[1..], sub);
      assert forall i: nat :: OccursAt(sub, s[1..], i) <==> OccursAt(sub, s, i + 1) by {
        forall i: nat ensures OccursAt(sub, s[1..], i) <==> OccursAt(sub, s, i + 1) {
          if i + 1 + |sub| <= |s| {
            assert s[1..][i..i + |sub|] == s[i + 1..i + 1 + |sub|];
          }
        }
      }
      assert !OccursAt(sub, s, 0);
      assert forall i: nat :: OccursAt(sub, s, i) ==> i >= 1 && OccursAt(sub, s[1..], i - 1);
      rest
  }

  /**
   `s.partition(sep)`: the text before the first `sep`, the separator itself
   (empty when `sep` does not occur) and the text after it.
   */
  function Partition(s: string, sep: char): (r: (string, string, string))
    ensures r.0 + r.1 + r.2 == s
    ensures sep !in r.0
    ensures r.1 == [sep] || (r.1 == [] && r.2 == [])
    decreases |s|
  {
    if |s| == 0 then ("", "", "")
    else if s[0] == sep then ("", [sep], s[1..])
    else
      var (head, mid, tail) := Partition(s[1..], sep);
      assert [s[0]] + head + mid + tail == s;
      ([s[0]] + head, mid, tail)
  }

  /** The three parts of a partition are determined by `s`: any split of that shape is the partition. */
  lemma {:induction false} PartitionUnique(head: string, tail: string, sep: char)
    requires sep !in head
    ensures Partition(head + [sep] + tail, sep) == (head, [sep], tail)
    ensures Partition(head, sep) == (head, "", "")
    decreases |head|
  {
    if |head| > 0 {
      assert (head + [sep] + tail)[1..] == head[1..] + [sep] + tail;
      PartitionUnique(head[1..], tail, sep);
      assert [head[0]] + head[1..] == head;
    }
  }

  /** Python's `s[:-k]` for `k >= 1`: everything but the last `k` characters, or `""` when `s` is shorter. */
  function DropLast(s: string, k: nat): (r: string)
    requires k >= 1
    ensures |s| >= k ==> |r| == |s| - k && r == s[..|s| - k]
    ensures |s| < k ==> r == ""
  {
    if |s| <= k then "" else s[..|s| - k]
  }

  /** The number of characters in all the parts together. */
  function TotalLength(parts: seq<string>): nat
    decreases |parts|
  {
    if |parts| == 0 then 0 else |parts[0]| + TotalLength(parts[1..])
  }

  /**
   Python's `sep.join(parts)`: the parts with one separator between
   neighbours, so that the text starts with the first part and is one
   character longer than the parts per separator.
   */
  function Join(parts: seq<string>, sep: char): (r: string)
    ensures |parts| == 0 ==> r == ""
    ensures |parts| >= 1 ==> |r| == TotalLength(parts) + |parts| - 1
    ensures |parts| >= 1 ==> IsPrefix(parts[0], r)
    decreases |parts|
  {
    if |parts| == 0 then ""
    else if |parts| == 1 then parts[0]
    else parts[0] + [sep] + Join(parts[1..], sep)
  }

  /** A join of three parts is the parts with two separators. */
  lemma JoinOfThree(a: string, b: string, c: string, sep: char)
    ensures Join([a, b, c], sep) == a + [sep] + b + [sep] + c
  {
    assert [a, b, c][1..] == [b, c];
    assert [b, c][1..] == [c];
    assert Join([b, c], sep) == b + [sep] + c;
    assert Join([a, b, c], sep) == a + [sep] + (b + [sep] + c);
  }

  /** A three-part join splits back uniquely when the first two parts avoid the separator. */
  lemma Join3Injective(a: string, b: string, c: string, a': string, b': string, c': string, sep: char)
    requires sep !in a && sep !in b && sep !in a' && sep !in b'
    requires Join([a, b, c], sep) == Join([a', b', c'], sep)
    ensures a == a' && b == b' && c == c'
  {
    JoinOfThree(a, b, c, sep);
    JoinOfThree(a', b', c', sep);
    PartitionUnique(a, b + [sep] + c, sep);
    PartitionUnique(a', b' + [sep] + c', sep);
    assert a + [sep] + b + [sep] + c == a + [sep] + (b + [sep] + c);
    assert a' + [sep] + b' + [sep] + c' == a' + [sep] + (b' + [sep] + c');
    PartitionUnique(b, c, sep);
    PartitionUnique(b', c', sep);
  }
}

=== FILE: wrappers.dfy ===
/**
 Failure-compatible wrappers shared by the whole model: an optional value, a
 value-or-error result, and the Python exceptions the modelled code can raise.
 */
module Wrappers {

  /** A value that may be absent (Python's `None`). */
  datatype Option<+T> = None | Some(value: T) {

    /** The wrapped value, or `default` when absent (Python's `x if x is not None else default`). */
    function GetOr(default: T): T {
      match this
      case Some(v) => v
      case None => default
    }
  }

  /** Either a value or the exception that the modelled Python code raises instead. */
  datatype Result<+T, +E> = Ok(value: T) | Err(error: E) {

    predicate IsFailure() {
      Err?
    }

    function PropagateFailure<U>(): Result<U, E>
      requires Err?
    {
      Err(error)
    }

    function Extract(): T
      requires Ok?
    {
      value
    }
  }

  /** The Python exceptions that the modelled code can raise on some input. */
  datatype Fault =
    | IndexError       // indexing an empty bytearray or list
    | AssertionError   // an `assert` statement that does not hold
}
